=== FILE: README.md ===
# Municipal agenda scrapers, modelled in Dafny

This project models the decision logic of six scraper scripts. Each script collects
city-council agenda packets from a meeting calendar. The browser, the HTTP client,
the HTML and JSON parsers and the file system are replaced by plain inputs:

- a table row is a sequence of cells;
- a JSON-LD event is a record of optional fields;
- a page is a flat sequence of tokens in document order;
- what a request, a click or a browser tab did is a parameter.

What remains is string and sequence logic, stated and proved:

- which rows, events and links are selected, and in what order;
- the file name each selected item gets;
- how each error path changes the result;
- how the success counters move.

Modules, one per script plus shared helpers:

- `Options`, `Seqs`, `Text`: `Option`, first-match search, and Python string
  operations (`str.strip`, `str.lower`, `str(n)`, substring tests).
- `Dates`: `datetime.date` validity, the `strftime('%Y-%m-%d')` spelling, and the
  `%m` / `%d` directives of `strptime`.
- `Sanitize`: `clean_filename` of `redlit_sanramon.py`.
- `Redlit`: the row resolver and the packet file name of `redlit_sanramon.py`.
- `JsonLd`: the JSON-LD event filter shared by both BoardDocs scripts.
- `Boarddocs`: `download_boarddocs.py`, including the claim of the newest PDF and
  the success counter.
- `Boarddocs2`: `download_boarddocs2.py`. It has a primary agenda-link path, a
  JSON-LD fallback, a success counter, and a count of browser windows.
- `Gemini`: `gemini_sanramon.py`. It covers the month enumeration, the calendar
  URLs, the `"%B %d, %Y"` date conversion, the packet-link pick and the crawl.
- `PleasantHill`: `Pleasant_Hill.py`. It covers the `.pdf` link filter, `basename`
  naming and the download loop.
- `Llama`: `llama_sanramon.py`. It pairs each meeting-date span with the next
  anchor and names the file after the date.

## Model

| member | source | states |
|---|---|---|
| Sanitize.RemoveIllegal | redlit_sanramon.py:142 | the first substitution leaves none of `< > : " / \ | ? *` |
| Sanitize.RemoveIllegalAppend | redlit_sanramon.py:142 | deleting the illegal characters works character by character: it distributes over concatenation |
| Sanitize.RemoveIllegalFixed | redlit_sanramon.py:142 | a string without illegal characters passes the first substitution unchanged |
| Sanitize.CollapseRunsChars | redlit_sanramon.py:143-144 | a run collapse is empty exactly when its input is; it writes only `-` and input characters outside the class; it starts with `-` exactly when the input starts with a class character or `-` |
| Sanitize.CollapseRunsNoDouble | redlit_sanramon.py:144 | collapsing runs of `-` never leaves two `-` in a row |
| Sanitize.CollapseRunsFixed | redlit_sanramon.py:143-144 | a string whose class characters are isolated `-` is left alone by a collapse |
| Sanitize.CollapseStagesSafe | redlit_sanramon.py:142-144 | after stages 2 and 3 there is no illegal character, no whitespace and no `--` |
| Sanitize.TrimHyphensSafe | redlit_sanramon.py:145 | stripping `-` from both ends keeps those three guarantees |
| Sanitize.CleanFilename | redlit_sanramon.py:140-145 | the cleaned name has no illegal character, no whitespace, no `--`, and does not start or end with `-` |
| Sanitize.CleanFilenameIdempotent | redlit_sanramon.py:140-145 | cleaning a cleaned name changes nothing |
| Sanitize.CleanFilenameContent | redlit_sanramon.py:140-145 | cleaning keeps every character that is not illegal, whitespace or `-`, in order; every other character of the result is `-` |
| Sanitize.CleanFilenameEmpty | redlit_sanramon.py:140-145 | the cleaned name is empty exactly when the meeting type has no such content character |
| Dates.IsoDateRoundTrip | redlit_sanramon.py:167 | `strftime('%Y-%m-%d')` of a valid date is 10 characters of digits and `-` and reads back as that date |
| Dates.IsoDateInjective | redlit_sanramon.py:167 | two valid dates share an ISO spelling exactly when they are equal |
| Dates.IsoDateExample | gemini_sanramon.py:49 | month and day are zero-padded: 5 March 2024 is `2024-03-05` |
| Dates.MonthTextField | redlit_sanramon.py:92 | the unpadded spelling of a month 1-12 is accepted by `%m` and reads back as that month |
| Dates.DayTextField | redlit_sanramon.py:92 | the unpadded spelling of a day 1-31 is accepted by `%d` and reads back as that day |
| Redlit.SplitSlashOf | redlit_sanramon.py:92 | cutting at the first `/` recovers the parts joined around it |
| Redlit.MatchesDatePrefix | redlit_sanramon.py:88 | the prefix regex only matches text of at least eight characters that starts with a digit |
| Redlit.StrptimeMdy | redlit_sanramon.py:92 | a successful `strptime` gives a valid date whose year is the last four characters of the text, all digits and preceded by `/` |
| Redlit.StrptimeFields | redlit_sanramon.py:92 | `strptime(t, '%m/%d/%Y')` reads any accepted month, day and 4-digit year fields as the date they spell |
| Redlit.MdyRoundTrip | redlit_sanramon.py:87-92 | every valid date spelled `M/D/YYYY` passes the prefix regex and `strptime` reads it back |
| Redlit.StrptimeBadMonth | redlit_sanramon.py:92 | a month field `%m` does not accept makes `strptime` fail, whatever follows |
| Redlit.RejectedDateExample | redlit_sanramon.py:88-92 | `13/45/2024` passes the prefix regex, `strptime` rejects it, and the row is skipped |
| Redlit.PrefixBadDay | redlit_sanramon.py:88 | a day field containing a non-digit fails the prefix regex |
| Redlit.SpacedDayExample | redlit_sanramon.py:88-92 | `strptime` accepts `1/ 5/2024`, but the prefix regex rejects it first |
| Redlit.AbsoluteUrl | redlit_sanramon.py:110-111 | an href starting with `http` is kept; any other href becomes the `Citizens/` base URL followed by the href without its leading `/` characters |
| Redlit.FirstPacket | redlit_sanramon.py:101-117 | the chosen href contains `FileOpen.aspx` and `Type=1` |
| Redlit.ScanForPacket | redlit_sanramon.py:101-117 | the nested cell and link loop with its two `break`s returns the first packet href in cell order, then link order |
| Redlit.ScanDone | redlit_sanramon.py:101-119 | a scan that finishes the row without a hit means the row has no packet link |
| Redlit.MeetingType | redlit_sanramon.py:94-97 | a non-empty second cell is the meeting type; an empty one gives exactly `Unknown Meeting` |
| Redlit.ResolveRow | redlit_sanramon.py:81-124 | a row yields an item exactly when it has at least 2 cells, its first cell passes the prefix regex and `strptime`, and it has a packet link. The item carries the parsed date, the absolute packet URL, and the second cell's text as meeting type, or `Unknown Meeting` when that text is empty. A row with fewer than 2 cells is reported as such |
| Redlit.RowItems | redlit_sanramon.py:113 | a row contributes at most one item, with a valid date and an `http` URL |
| Redlit.PageItems | redlit_sanramon.py:75-124 | a page yields at most one item per row, each with a valid date and an `http` URL |
| Redlit.PageItemsAppend | redlit_sanramon.py:75-124 | the rows of a page are resolved independently, in order |
| Redlit.AgendaItems | redlit_sanramon.py:50-128 | every item collected over the calendar pages has a valid date and an `http` URL |
| Redlit.Scrape | redlit_sanramon.py:45-128 | the items of both year pages have valid dates and `http` URLs; when both pages fail to load, the list is empty |
| Redlit.ScrapeByYear | redlit_sanramon.py:45-128 | the 2024 page's items come first and the 2025 page's follow; each page contributes its own items or, when loading it raises, nothing |
| Redlit.AgendaItemsFailedPage | redlit_sanramon.py:50-128 | a calendar page that fails to load loses only its own items |
| Redlit.PacketFilenameShape | redlit_sanramon.py:167 | the packet file name starts with the ISO date, which reads back as the item's date, then `_`; it ends in `.pdf` and has no illegal character or whitespace |
| Redlit.PacketFilenameInjective | redlit_sanramon.py:167 | two items get the same file name exactly when their dates are equal and their meeting types clean to the same text |
| JsonLd.Events | download_boarddocs.py:59-61 | a JSON list is used as it is; any other top-level value becomes a one-element list |
| JsonLd.DatePart | download_boarddocs.py:67 | the date text is the part of `startDate` before the first `T`, with each `-` replaced by `/` |
| JsonLd.DatePartOf | download_boarddocs.py:67 | everything from the first `T` on is dropped |
| JsonLd.StartDateText | download_boarddocs.py:67 | a missing `startDate` gives the empty text; a non-string one raises |
| JsonLd.Select | download_boarddocs.py:65-70 | a non-object raises; a non-`Event` is skipped; a non-string `startDate` raises; an event is a target exactly when its date text contains `2024` or `2025` |
| JsonLd.MissingStartDateSkipped | download_boarddocs.py:67-70 | an event without `startDate` is always skipped |
| Boarddocs.NewestIndex | download_boarddocs.py:96 | `max(key=getctime)` picks a file whose creation time no other file exceeds, the first such in `glob` order |
| Boarddocs.NewestIndexUnique | download_boarddocs.py:96 | only the first file of greatest creation time meets that description |
| Boarddocs.FirstNewestIsNewestIndex | download_boarddocs.py:96 | a candidate that no other candidate is newer than, and that every earlier candidate is strictly older than, is the one `NewestIndex` picks |
| Boarddocs.FirstNewestUnique | download_boarddocs.py:96 | at most one candidate fits that description |
| Boarddocs.ClaimNewest | download_boarddocs.py:94-104 | with no candidate nothing changes. Otherwise let `k` be the candidate `max(key=getctime)` returns: the first of greatest creation time. When the Windows rename of `k` is blocked, nothing changes. Otherwise exactly `k` is renamed to the target and the count rises by one. When no file has the target name, a non-empty candidate list always raises the count |
| Boarddocs.ClaimWholeFolder | download_boarddocs.py:94-99 | the script's claim keeps the folder's length and raises the count by at most one. When it counts nothing, the folder is the old files followed by the arrived ones. When it counts, some file carries the target name |
| Boarddocs.StaleClaim | download_boarddocs.py:94-99 | with the whole folder as candidates, a click that produced no file still renames an earlier agenda to this event's name and counts it |
| Boarddocs.ClaimSinceClick | download_boarddocs.py:94-99 | with only the files that arrived after the click as candidates, earlier files are never touched. When it counts, one of the arrived files carries the target name |
| Boarddocs.ClaimSinceClickFresh | download_boarddocs.py:94-99 | a counted claim renames the file `max` picks among the arrived files, and leaves every earlier file as it was |
| Boarddocs.ClaimSinceClickNothing | download_boarddocs.py:100-104 | when nothing arrived, the count and folder are unchanged |
| Boarddocs.Claim | download_boarddocs.py:94-104 | under either rule the folder grows by the arrived files and the count by at most one. A counted download leaves a file under the target name. Under the intended rule, earlier files are untouched, and a click that produced nothing changes nothing |
| Boarddocs.EventName | download_boarddocs.py:73 | a missing `name` gives `Unknown_Event`; a non-string one makes the name expression raise |
| Boarddocs.AgendaFilenameInjective | download_boarddocs.py:90 | for date texts of equal length, two events share a file name exactly when their dates and names agree after the `_` replacements |
| Boarddocs.AgendaFilenameExample | download_boarddocs.py:67-90 | a `2024-03-05T…` event named `Board Meeting` is saved as `agenda_2024_03_05_Board_Meeting.pdf` |
| Boarddocs.EventStep | download_boarddocs.py:65-123 | one event adds at most one to the count, and only for a target event whose button was clicked while the folder held a PDF; a non-target event changes nothing. A counted event leaves a file named `agenda_<date>_<name>.pdf` from its own start date and name. Under the intended rule, earlier files are never altered and only an event whose click produced a file counts |
| Boarddocs.StaleEventStep | download_boarddocs.py:90-99 | for a target event whose click produced nothing, in a folder with earlier PDFs and none under this event's name, the script's rule counts a download; the intended rule changes nothing |
| Boarddocs.ProcessEvents | download_boarddocs.py:64-123 | the count never exceeds the number of target events; under the intended rule, files already in the folder are never altered |
| Boarddocs.RunScript | download_boarddocs.py:58-129 | an unparsable script body downloads nothing; otherwise the count is at most the number of target events |
| Boarddocs.Run | download_boarddocs.py:53-131 | only the first `ld+json` script is processed, and a page without one downloads nothing; `Run(WholeFolder, ...)` is the script itself |
| Boarddocs.RunFirstOnly | download_boarddocs.py:53-129 | only the first `ld+json` script is processed, whatever happens to it |
| Boarddocs.RunNoLdJson | download_boarddocs.py:53-131 | with no `ld+json` script, nothing is downloaded |
| Boarddocs.SingleEventWrapped | download_boarddocs.py:60-61 | a single top-level event is processed exactly like a one-element list |
| Boarddocs2.Recover | download_boarddocs2.py:94-99 | the error handler closes the second window and refocuses the first, and leaves a single window alone |
| Boarddocs2.VisitTab | download_boarddocs2.py:67-99 | from the base window, every tab outcome ends back at the base window; a file is written exactly when the tab saved |
| Boarddocs2.AgendaFilenameInjective | download_boarddocs2.py:79 | two date texts give the same file name exactly when they agree after `/` becomes `_` |
| Boarddocs2.SaveItem | download_boarddocs2.py:67-99 | the count rises by one exactly when a file is written, and the browser returns to base |
| Boarddocs2.PickDate | download_boarddocs2.py:56-65 | the date is the stripped text of the first descendant whose stripped text is non-empty and mentions 2024 or 2025; there is none exactly when no text qualifies |
| Boarddocs2.PickDateFirst | download_boarddocs2.py:57-61 | texts after the first qualifying one do not matter |
| Boarddocs2.LinkStep | download_boarddocs2.py:54-99 | one agenda link writes its file or nothing, and the count tracks the files written |
| Boarddocs2.Primary | download_boarddocs2.py:53-99 | over the agenda links, the count rises by exactly the number of files written, and the browser ends at the base window |
| Boarddocs2.PrimaryWrites | download_boarddocs2.py:53-99 | the primary loop writes, in link order, one file per dated link whose tab saved |
| Boarddocs2.ScriptEvents | download_boarddocs2.py:118-156 | over one script's events, the count rises by exactly the number of files written, and the browser ends at the base window |
| Boarddocs2.ScriptEventsAppend | download_boarddocs2.py:118-156 | an exception while handling one event abandons the rest of that script's events |
| Boarddocs2.Fallback | download_boarddocs2.py:106-156 | over all scripts, the count rises by exactly the number of files written, and the browser ends at the base window |
| Boarddocs2.FallbackAppend | download_boarddocs2.py:108-156 | every script is visited: what happens in one script never stops the scripts after it |
| Boarddocs2.FallbackWrites | download_boarddocs2.py:108-156 | the fallback writes, script by script, one file per saved target event up to each script's first exception |
| Boarddocs2.Run | download_boarddocs2.py:45-106 | the fallback runs only when the agenda-link wait raised. The run ends at the base window, and `pdf_count` equals the number of files written |
| Gemini.MonthPairs | gemini_sanramon.py:22-23 | there are `12 * (end - start + 1)` (year, month) pairs when `end >= start` and none otherwise; each pair is in range |
| Gemini.MonthPairsMembers | gemini_sanramon.py:22-23 | a pair is visited exactly when its year is in the range and its month is 1-12 |
| Gemini.MonthPairsAscending | gemini_sanramon.py:22-23 | pairs are visited in strictly ascending (year, month) order |
| Gemini.CalendarQueryParts | gemini_sanramon.py:25-26 | the year and the month can be read back out of the `Year=…&Month=…` query |
| Gemini.CalendarUrlInjective | gemini_sanramon.py:25-26 | two months share a calendar URL exactly when they are the same month |
| Gemini.MonthNumber | gemini_sanramon.py:48 | `%B` matches a month name in any letter case, and no other text |
| Gemini.MonthNumberOfName | gemini_sanramon.py:48 | each English month name is read as its own month |
| Gemini.ParseLongDate | gemini_sanramon.py:48 | a successful `"%B %d, %Y"` parse gives a valid date |
| Gemini.ParseLongDateOf | gemini_sanramon.py:48 | any spelling the pattern accepts is read as the date it names: any case of the month name, any whitespace runs, any `%d` form of the day |
| Gemini.LongDateRoundTrip | gemini_sanramon.py:48 | the calendar's own spelling of a date parses back to that date |
| Gemini.DateStr | gemini_sanramon.py:44-55 | a missing element, or one whose stripped text `"%B %d, %Y"` does not parse, gives `unknown_date`; a parsed one gives the ISO spelling of the parsed date, which reads back as that date |
| Gemini.DateStrOfLongDate | gemini_sanramon.py:44-49 | an element holding the calendar's spelling of a date gives that date's ISO spelling |
| Gemini.DateStrExample | gemini_sanramon.py:46-49 | `March 5, 2024` gives `2024-03-05` |
| Gemini.PacketAnchor | gemini_sanramon.py:58-60 | the packet link is the first anchor whose single text contains `Agenda Packet`; there is none exactly when no anchor qualifies |
| Gemini.PacketAnchorFirst | gemini_sanramon.py:58 | anchors after the first qualifying one do not matter |
| Gemini.PacketFilenameInjective | gemini_sanramon.py:62 | the file name depends only on the date string, and different date strings give different names |
| Gemini.MeetingStep | gemini_sanramon.py:34-81 | a meeting link without `href` aborts the run. A failed meeting request, or a page without an `Agenda Packet` anchor, writes nothing and goes on. The step aborts exactly when the packet anchor has no `href`. It writes exactly when the packet download succeeds, and then the file is named after that page's date string |
| Gemini.MeetingStepOfDate | gemini_sanramon.py:44-76 | a meeting page dated in the calendar's spelling of a date, whose packet anchor has an `href` that downloads, saves its packet as that date's ISO spelling followed by `_SanRamon_AgendaPacket.pdf` |
| Gemini.Meetings | gemini_sanramon.py:34-81 | a month's meeting links write at most one file each, every one with a packet name |
| Gemini.MonthStep | gemini_sanramon.py:24-84 | each month requests its calendar URL; a failed request writes nothing and does not abort |
| Gemini.Months | gemini_sanramon.py:22-84 | every file written has a packet name; unless the run aborted, the calendar URLs requested are exactly those of the months, in order |
| Gemini.MonthsAppend | gemini_sanramon.py:22-84 | the month loop over `a + b` continues into `b` unless `a` aborted |
| Gemini.FailedMonthSkipped | gemini_sanramon.py:28-84 | a month whose calendar request failed leaves the files written and the abort status as if it were absent |
| Gemini.Run | gemini_sanramon.py:22-84 | unless a missing `href` aborted the run, every month's calendar URL is requested in ascending order. Every file written has a packet name |
| PleasantHill.PdfLinkSuffix | Pleasant_Hill.py:26 | a link is selected exactly when its last four characters, lower-cased, are `.pdf` |
| PleasantHill.UpperCaseSelected | Pleasant_Hill.py:26 | `X.PDF` is selected |
| PleasantHill.QuerySuffixNotSelected | Pleasant_Hill.py:26 | `x.pdf?y=1` is not selected |
| PleasantHill.Basename | Pleasant_Hill.py:31 | the saved name contains no `/` |
| PleasantHill.BasenameSplit | Pleasant_Hill.py:31 | the saved name is a suffix of the URL, and what precedes it is empty or ends in `/` |
| PleasantHill.BasenameOf | Pleasant_Hill.py:31 | the segment after the last `/` is the name, whatever precedes it |
| PleasantHill.PdfUrls | Pleasant_Hill.py:22-28 | at most one URL per anchor is downloaded |
| PleasantHill.PdfUrlsOne | Pleasant_Hill.py:22-28 | one anchor contributes its URL resolved against the page exactly when it has an `href` ending in `.pdf`, and nothing otherwise |
| PleasantHill.PdfUrlsAppend | Pleasant_Hill.py:22-28 | the URLs of two runs of anchors are those of the first run followed by those of the second, so downloads follow document order |
| PleasantHill.PdfUrlsMembers | Pleasant_Hill.py:22-28 | a URL is downloaded exactly when some anchor with an `href` ending in `.pdf` resolves to it |
| PleasantHill.Save | Pleasant_Hill.py:31-39 | saving never removes a file, and the last URL saved is what its basename holds |
| PleasantHill.SaveKeys | Pleasant_Hill.py:31-39 | the folder afterwards holds the old files plus one name per saved URL |
| PleasantHill.LastWins | Pleasant_Hill.py:22-39 | when two links share a basename, the later one replaces the earlier file |
| PleasantHill.SaveKeepsOthers | Pleasant_Hill.py:38-39 | a file that no saved URL is named after keeps its content |
| PleasantHill.Run | Pleasant_Hill.py:15-39 | a failed page request aborts. Selected links are downloaded in document order. The run stops at the first failed request or empty name, and every saved URL was fetched |
| Llama.NextLink | llama_sanramon.py:33 | `find_next('a')` returns the first anchor after the span, and no anchor lies between; with no result there is no anchor after the span |
| Llama.NextLinkUnique | llama_sanramon.py:33 | only the first following anchor meets that description |
| Llama.PacketFilename | llama_sanramon.py:32-47 | the file name is the stripped date text followed by `.pdf` |
| Llama.PacketFilenameInjective | llama_sanramon.py:32-47 | two dates share a file name exactly when their stripped texts are equal |
| Llama.DateStep | llama_sanramon.py:30-56 | a date with no anchor after it is skipped without a crash. The step crashes exactly when that anchor has no `href`, and a crash writes nothing. A written file is named after the date |
| Llama.DateStepWritten | llama_sanramon.py:30-56 | a date writes exactly its own name paired with the first following anchor's `href`, when that URL fetched and the name could be written, and nothing else |
| Llama.Dates | llama_sanramon.py:30-56 | the loop writes at most one file per page element |
| Llama.DatesWritten | llama_sanramon.py:30-56 | every file written comes from one meeting date: it is named after that date and holds the first anchor after it, fetched and written without error |
| Llama.DatesComplete | llama_sanramon.py:30-56 | unless a `KeyError` crashed the run, every date whose anchor fetched and whose file could be written has its file among those written |
| Llama.FailedFetchSkipped | llama_sanramon.py:40-45 | a date whose request fails writes nothing, and the loop continues as if that date were absent |
| Llama.Run | llama_sanramon.py:7-27 | a failed page request, or a page without meeting dates, exits before the folder set-up or any fetch. Every name written ends in `.pdf` |
| Llama.NoDatesNothing | llama_sanramon.py:20-22 | a page without meeting-date spans creates no folder and writes nothing |

## Findings

| source | as written | input that shows it | evidently intended | confidence | as-written member | corrected member |
|---|---|---|---|---|---|---|
| download_boarddocs.py:94-99 | every `*.pdf` in the output folder is a candidate. That includes agendas that earlier events already claimed and renamed | an event whose click produced no new file, after an earlier event's agenda is already in the folder. The earlier agenda is renamed to this event's name and `pdf_count` rises | only files that appeared since this event's click are candidates; with none, nothing is renamed or counted | medium; not executed | Boarddocs.ClaimWholeFolder, Boarddocs.StaleClaim | Boarddocs.ClaimSinceClick, Boarddocs.ClaimSinceClickFresh, Boarddocs.ClaimSinceClickNothing |

`Boarddocs.Run` takes the claim rule as a parameter. `WholeFolder` gives the script as written, and `SinceClick` the corrected pipeline. For the corrected pipeline, `Boarddocs.ProcessEvents` proves that earlier files are never altered. `Boarddocs.StaleEventStep` shows the two rules part at a single event.

## Left out

- Browsers, HTTP and HTML parsing are not modelled: Selenium, `requests`, BeautifulSoup, XPath, waits and sleeps. Their results are inputs:
  - rows and cells;
  - JSON-LD values;
  - token sequences;
  - click and tab outcomes;
  - `fetch` / `writable` predicates.
- `json.loads` is not modelled: a script body is a parsed document, or `None` when it does not parse.
- `urljoin` is an opaque parameter in `Gemini` and `PleasantHill`. `urlencode` is modelled only for integer parameters, the only kind used.
- `download_utils.py` is not part of this model. Its streaming writes, floating-point progress figure and partial-file cleanup are out.
- A download that fails mid-stream can leave a partial file. The model treats each file as written whole or not at all.
- Logging, console output and the diagnostic HTML dumps are left out.
- Driver start-up failures are left out, as is the outer `except` around each whole script.
- Python's `\d` is modelled for ASCII digits only. `\s`, `str.isspace` and `str.strip()` use the full set of characters `str.isspace` accepts.
- Month names are English only, and case is ignored for ASCII letters only.
- `strftime('%Y')` is modelled as zero-padded to four digits. For years below 1000 this depends on the platform.
- The cell text in `Redlit` is given as `get_text(strip=True)` already returned it.
- `os.path.basename` follows POSIX and splits only at `/`. On Windows, `\` would also split.
- `Boarddocs`: the candidate list is the PDFs in `glob` order with their creation times. In-progress `.crdownload` files are not modelled.
- `Boarddocs`: `os.rename` follows Windows semantics, where an existing target blocks the rename. A rename that fails for any other reason is not modelled.
- `Boarddocs2.Recover` does not model the error handler itself raising, for example when the second window is already gone.
- `Gemini.Run`: `OSError` while writing a packet file would also end the run. The model treats the file system as always writable there.
- `PleasantHill.Run`: directory creation and failed writes other than an empty file name are not modelled. Content is represented by the URL it came from.
- `Llama`: the folder is represented by whether the run reached the folder set-up, after which it exists; file contents by the URL fetched. A later date with the same name overwrites the earlier file, and the model lists both writes.
- `Redlit`: the download loop of `main` (redlit_sanramon.py:165-177) is left out beyond the file name. It only calls into `download_utils.py` and logs failures.

=== FILE: boarddocs.dfy ===
/**
 The first BoardDocs downloader (`download_boarddocs.py`): it reads the first JSON-LD
 script of the board's public page, and for every 2024/2025 event clicks the agenda's
 download button and then claims the newest PDF in the download folder by renaming it
 to `agenda_<date>_<name>.pdf`.

 The browser is abstracted to what each click leaves in the folder (`Click`), the
 folder to its list of PDF files in `glob` order with their creation times.
 */
module Boarddocs {
  import opened Options
  import opened Seqs
  import opened Text
  import opened JsonLd

  /** A PDF file in the download folder and its `os.path.getctime`. */
  datatype PdfFile = PdfFile(name: string, ctime: int)

  /** The download folder and `pdf_count`. */
  datatype Downloads = Downloads(dir: seq<PdfFile>, count: nat)

  /** What clicking an event's download button did: the button never became
      clickable (the wait raised), or it was clicked and these PDFs appeared. */
  datatype Click = ButtonMissing | Clicked(arrived: seq<PdfFile>)

  /** `max(files, key=os.path.getctime)`: the index of the first file whose creation
      time is not exceeded, scanning left to right as `max` does. */
  function NewestIndex(files: seq<PdfFile>): (k: nat)
    requires files != []
    ensures k < |files|
    ensures forall i | 0 <= i < |files| :: files[i].ctime <= files[k].ctime
    ensures forall i | 0 <= i < k :: files[i].ctime < files[k].ctime
  {
    if |files| == 1 then 0
    else
      var k := NewestIndex(files[..|files| - 1]);
      if files[|files| - 1].ctime > files[k].ctime then |files| - 1 else k
  }

  /** The two properties of `NewestIndex` pin it down: it is the only index that is
      newest and strictly newer than everything before it. */
  lemma NewestIndexUnique(files: seq<PdfFile>, k: nat)
    requires k < |files|
    requires forall i | 0 <= i < |files| :: files[i].ctime <= files[k].ctime
    requires forall i | 0 <= i < k :: files[i].ctime < files[k].ctime
    ensures NewestIndex(files) == k
  {
    var n := NewestIndex(files);
    if n < k {
      assert false;
    } else if k < n {
      assert false;
    }
  }

  /** `os.rename(src, dst)` on Windows raises `FileExistsError` when another file
      already has the target name. */
  predicate RenameBlocked(dir: seq<PdfFile>, k: nat, target: string) {
    exists i | 0 <= i < |dir| :: i != k && dir[i].name == target
  }

  /** `k` is the file `max(..., key=os.path.getctime)` returns among the candidates
      `dir[from..]`: no candidate is newer, and every candidate before it is strictly
      older, since `max` keeps the first of equal keys. */
  predicate FirstNewest(dir: seq<PdfFile>, from: nat, k: int) {
    && from <= k < |dir|
    && (forall i | from <= i < |dir| :: dir[i].ctime <= dir[k].ctime)
    && (forall i | from <= i < k :: dir[i].ctime < dir[k].ctime)
  }

  /** The candidate that fits that description is the one `NewestIndex` computes on
      the candidate slice. */
  lemma FirstNewestIsNewestIndex(dir: seq<PdfFile>, from: nat, k: int)
    requires FirstNewest(dir, from, k)
    ensures from < |dir| && k == from + NewestIndex(dir[from..])
  {
    var cands := dir[from..];
    assert forall i | 0 <= i < |cands| :: cands[i] == dir[from + i];
    NewestIndexUnique(cands, k - from);
  }

  /** At most one candidate fits that description. */
  lemma FirstNewestUnique(dir: seq<PdfFile>, from: nat, k1: int, k2: int)
    requires FirstNewest(dir, from, k1) && FirstNewest(dir, from, k2)
    ensures k1 == k2
  {
    FirstNewestIsNewestIndex(dir, from, k1);
    FirstNewestIsNewestIndex(dir, from, k2);
  }

  /** The claim step: among the candidates `dir[from..]`, the one `max` picks is renamed
      to `target` and counted, unless the rename raises; with no candidate, or when the
      rename raises, nothing changes. */
  function ClaimNewest(st: Downloads, from: nat, target: string): (r: Downloads)
    requires from <= |st.dir|
    ensures |r.dir| == |st.dir|
    ensures r.count == st.count || r.count == st.count + 1
    ensures r.count == st.count ==> r == st
    ensures r.count == st.count + 1 ==> exists i | from <= i < |r.dir| :: r.dir[i].name == target
    ensures from == |st.dir| ==> r == st
    ensures from < |st.dir| ==>
      exists k | FirstNewest(st.dir, from, k) ::
        r == if RenameBlocked(st.dir, k, target) then st
             else Downloads(st.dir[k := PdfFile(target, st.dir[k].ctime)], st.count + 1)
    ensures from < |st.dir| && (forall i | 0 <= i < |st.dir| :: st.dir[i].name != target) ==>
      r.count == st.count + 1
  {
    if from == |st.dir| then st
    else
      var cands := st.dir[from..];
      var k := from + NewestIndex(cands);
      assert forall i | from <= i < |st.dir| :: st.dir[i] == cands[i - from];
      assert FirstNewest(st.dir, from, k);
      if RenameBlocked(st.dir, k, target) then st
      else
        var r := Downloads(st.dir[k := PdfFile(target, st.dir[k].ctime)], st.count + 1);
        assert r.dir[k].name == target;
        r
  }

  /** The claim as written (download_boarddocs.py): the candidates are every PDF in
      the folder, including the ones earlier events already claimed and renamed. */
  function ClaimWholeFolder(st: Downloads, arrived: seq<PdfFile>, target: string): (r: Downloads)
    ensures |r.dir| == |st.dir| + |arrived|
    ensures r.count == st.count || r.count == st.count + 1
    ensures r.count == st.count ==> r.dir == st.dir + arrived
    ensures r.count == st.count + 1 ==> exists i | 0 <= i < |r.dir| :: r.dir[i].name == target
  {
    ClaimNewest(Downloads(st.dir + arrived, st.count), 0, target)
  }

  /** The claim as intended: the candidates are only the PDFs that appeared after
      this event's click. */
  function ClaimSinceClick(st: Downloads, arrived: seq<PdfFile>, target: string): (r: Downloads)
    ensures |r.dir| == |st.dir| + |arrived|
    ensures forall i | 0 <= i < |st.dir| :: r.dir[i] == st.dir[i]
    ensures r.count == st.count || r.count == st.count + 1
    ensures r.count == st.count + 1 ==>
      exists i | |st.dir| <= i < |r.dir| :: r.dir[i].name == target
  {
    var r := ClaimNewest(Downloads(st.dir + arrived, st.count), |st.dir|, target);
    assert forall i | 0 <= i < |st.dir| :: (st.dir + arrived)[i] == st.dir[i];
    r
  }

  /** The discrepancy: when a click produced no file but the folder already holds
      earlier agendas, the whole-folder claim still renames one of those earlier files
      to this event's name and counts a download. */
  lemma StaleClaim(st: Downloads, target: string)
    requires st.dir != []
    requires forall i | 0 <= i < |st.dir| :: st.dir[i].name != target
    ensures ClaimWholeFolder(st, [], target).count == st.count + 1
    ensures exists k | 0 <= k < |st.dir| :: ClaimWholeFolder(st, [], target).dir[k].name == target
  {
    assert Downloads(st.dir + [], st.count) == st;
    var r := ClaimNewest(st, 0, target);
    var k :| FirstNewest(st.dir, 0, k) &&
      r == if RenameBlocked(st.dir, k, target) then st
           else Downloads(st.dir[k := PdfFile(target, st.dir[k].ctime)], st.count + 1);
    assert r.dir[k].name == target;
  }

  /** The corrected claim counts nothing when the click produced no file. */
  lemma ClaimSinceClickNothing(st: Downloads, target: string)
    ensures ClaimSinceClick(st, [], target) == st
  {
    assert st.dir + [] == st.dir;
  }

  /** The corrected claim renames the file `max` picks among those that arrived after
      the click, and no earlier file. */
  lemma ClaimSinceClickFresh(st: Downloads, arrived: seq<PdfFile>, target: string)
    requires ClaimSinceClick(st, arrived, target).count == st.count + 1
    ensures exists k | FirstNewest(arrived, 0, k) ::
      ClaimSinceClick(st, arrived, target).dir == st.dir + arrived[k := PdfFile(target, arrived[k].ctime)]
  {
    var all := st.dir + arrived;
    var r := ClaimSinceClick(st, arrived, target);
    var k :| FirstNewest(all, |st.dir|, k) &&
      r == if RenameBlocked(all, k, target) then Downloads(all, st.count)
           else Downloads(all[k := PdfFile(target, all[k].ctime)], st.count + 1);
    ClaimInArrived(st.dir, arrived, k, r.dir, target);
  }

  /** A claim of candidate `k` among `before + arrived[..]` is a claim inside `arrived`. */
  lemma ClaimInArrived(before: seq<PdfFile>, arrived: seq<PdfFile>, k: int, r: seq<PdfFile>, target: string)
    requires FirstNewest(before + arrived, |before|, k)
    requires r == (before + arrived)[k := PdfFile(target, (before + arrived)[k].ctime)]
    ensures FirstNewest(arrived, 0, k - |before|)
    ensures r == before + arrived[k - |before| := PdfFile(target, arrived[k - |before|].ctime)]
  {
    forall i | 0 <= i < |arrived| ensures (before + arrived)[|before| + i] == arrived[i] {
    }
  }

  /** The corrected claim counts a download whenever a new file arrived and no file
      already has the target name. */
  lemma ClaimSinceClickCounts(st: Downloads, arrived: seq<PdfFile>, target: string)
    requires arrived != []
    requires forall i | 0 <= i < |st.dir| + |arrived| :: (st.dir + arrived)[i].name != target
    ensures ClaimSinceClick(st, arrived, target).count == st.count + 1
  {
  }

  const UnknownEvent: string := "Unknown_Event"

  /** `event.get("name", "Unknown_Event")` as far as the filename needs it: `None`
      when the name is not a string, so `.replace` raises. */
  function EventName(f: Field): (r: Option<string>)
    ensures r.None? <==> f.NonStr?
    ensures f.Absent? ==> r == Some(UnknownEvent)
    ensures f.Str? ==> r == Some(f.text)
  {
    match f
    case Absent => Some(UnknownEvent)
    case Str(n) => Some(n)
    case NonStr => None
  }

  /** `f"agenda_{date_text.replace('/', '_')}_{event_name.replace(' ', '_')}.pdf"`. */
  function AgendaFilename(dateText: string, name: string): string {
    "agenda_" + ReplaceChar(dateText, '/', '_') + "_" + ReplaceChar(name, ' ', '_') + ".pdf"
  }

  /** Where each component sits in the filename. */
  lemma AgendaFilenameParts(dateText: string, name: string)
    ensures var f := AgendaFilename(dateText, name);
      && |f| == 12 + |dateText| + |name|
      && f[..7] == "agenda_"
      && f[7..7 + |dateText|] == ReplaceChar(dateText, '/', '_')
      && f[7 + |dateText|] == '_'
      && f[8 + |dateText|..|f| - 4] == ReplaceChar(name, ' ', '_')
      && f[|f| - 4..] == ".pdf"
  {
  }

  /** For date texts of one length (every `YYYY/MM/DD`), two events get the same file
      name exactly when their dates and names agree after the underscore replacements. */
  lemma AgendaFilenameInjective(d1: string, n1: string, d2: string, n2: string)
    requires |d1| == |d2|
    ensures AgendaFilename(d1, n1) == AgendaFilename(d2, n2) <==>
      ReplaceChar(d1, '/', '_') == ReplaceChar(d2, '/', '_') && ReplaceChar(n1, ' ', '_') == ReplaceChar(n2, ' ', '_')
  {
    AgendaFilenameParts(d1, n1);
    AgendaFilenameParts(d2, n2);
  }

  /** The worked example: a 5 March 2024 board meeting. */
  lemma AgendaFilenameExample(start: string, name: string)
    requires start == "2024-03-05T18:00:00" && name == "Board Meeting"
    ensures AgendaFilename(DatePart(start), name) == "agenda_2024_03_05_Board_Meeting.pdf"
  {
    ExampleDatePart(start);
    var d, n := ReplaceChar(DatePart(start), '/', '_'), ReplaceChar(name, ' ', '_');
    ExampleReplacements(DatePart(start), name);
    ExampleJoin(d, n);
  }

  lemma ExampleDatePart(start: string)
    requires start == "2024-03-05T18:00:00"
    ensures DatePart(start) == "2024/03/05"
  {
    var pre, post := start[..10], start[11..];
    assert start == pre + "T" + post;
    DatePartOf(pre, post);
  }

  lemma ExampleReplacements(dt: string, name: string)
    requires dt == "2024/03/05" && name == "Board Meeting"
    ensures ReplaceChar(dt, '/', '_') == "2024_03_05"
    ensures ReplaceChar(name, ' ', '_') == "Board_Meeting"
  {
  }

  lemma ExampleJoin(d: string, n: string)
    requires d == "2024_03_05" && n == "Board_Meeting"
    ensures "agenda_" + d + "_" + n + ".pdf" == "agenda_2024_03_05_Board_Meeting.pdf"
  {
  }

  /** Which PDFs the claim step chooses from: the whole folder, as the script does, or
      only those that arrived after the click, as intended. */
  datatype ClaimRule = WholeFolder | SinceClick

  function Claim(rule: ClaimRule, st: Downloads, arrived: seq<PdfFile>, target: string): (r: Downloads)
    ensures |r.dir| == |st.dir| + |arrived|
    ensures r.count == st.count || r.count == st.count + 1
    ensures rule.SinceClick? ==> forall i | 0 <= i < |st.dir| :: r.dir[i] == st.dir[i]
    ensures rule.SinceClick? && arrived == [] ==> r == st
    ensures r.count == st.count + 1 ==> exists i | 0 <= i < |r.dir| :: r.dir[i].name == target
  {
    match rule
    case WholeFolder => ClaimWholeFolder(st, arrived, target)
    case SinceClick => ClaimSinceClickNothing(st, target); ClaimSinceClick(st, arrived, target)
  }

  /** One element of the event list (the body of the per-event `try`): a skipped or
      failing event leaves the folder and count alone; a target event whose button was
      clicked adds the arrived files and claims one PDF under `rule`. */
  function EventStep(rule: ClaimRule, v: Value, c: Click, st: Downloads): (r: Downloads)
    ensures |r.dir| >= |st.dir|
    ensures r.count == st.count || r.count == st.count + 1
    ensures r.count == st.count + 1 ==> Select(v).Target? && c.Clicked? && (st.dir != [] || c.arrived != [])
    ensures !Select(v).Target? ==> r == st
    ensures rule.SinceClick? ==> forall i | 0 <= i < |st.dir| :: r.dir[i] == st.dir[i]
    ensures rule.SinceClick? && r.count == st.count + 1 ==> c.arrived != []
    ensures r.count == st.count + 1 ==>
      Select(v).Target? && EventName(v.name).Some? &&
      exists i | 0 <= i < |r.dir| ::
        r.dir[i].name == AgendaFilename(Select(v).dateText, EventName(v.name).value)
  {
    match Select(v)
    case Skip => st
    case Raise => st
    case Target(dt) =>
      if !v.url.Str? then st
      else
        match c
        case ButtonMissing => st
        case Clicked(arrived) =>
          match EventName(v.name)
          case None =>
            assert forall i | 0 <= i < |st.dir| :: (st.dir + arrived)[i] == st.dir[i];
            Downloads(st.dir + arrived, st.count)
          case Some(n) =>
            var r := Claim(rule, st, arrived, AgendaFilename(dt, n));
            assert |st.dir + arrived| == 0 ==> r == st;
            r
  }

  /** The discrepancy at the level of one event: a target event whose click produced no
      file still counts a download under the script's rule, by renaming an earlier PDF,
      while the intended rule leaves everything alone. */
  lemma StaleEventStep(v: Value, st: Downloads)
    requires Select(v).Target? && v.url.Str? && EventName(v.name).Some?
    requires st.dir != []
    requires forall i | 0 <= i < |st.dir| ::
      st.dir[i].name != AgendaFilename(Select(v).dateText, EventName(v.name).value)
    ensures EventStep(WholeFolder, v, Clicked([]), st).count == st.count + 1
    ensures EventStep(SinceClick, v, Clicked([]), st) == st
  {
    StaleClaim(st, AgendaFilename(Select(v).dateText, EventName(v.name).value));
  }

  /** The number of list elements the filter lets through. */
  function TargetCount(events: seq<Value>): nat {
    if events == [] then 0 else (if Select(events[0]).Target? then 1 else 0) + TargetCount(events[1..])
  }

  /** The per-event loop: event `j` meets click `clicks(j)`. An exception inside one
      event is caught by the loop and only that event is skipped. */
  function ProcessEvents(rule: ClaimRule, events: seq<Value>, j: nat, clicks: nat -> Click, st: Downloads): (r: Downloads)
    ensures r.count <= st.count + TargetCount(events)
    ensures |r.dir| >= |st.dir|
    ensures rule.SinceClick? ==> forall i | 0 <= i < |st.dir| :: r.dir[i] == st.dir[i]
    decreases |events|
  {
    if events == [] then st
    else ProcessEvents(rule, events[1..], j + 1, clicks, EventStep(rule, events[0], clicks(j), st))
  }

  /** One JSON-LD script: an unparsable body is abandoned with no download. */
  function RunScript(rule: ClaimRule, s: Script, clicks: nat -> Click, dir: seq<PdfFile>): (r: Downloads)
    ensures s.body.None? ==> r == Downloads(dir, 0)
    ensures |r.dir| >= |dir|
    ensures rule.SinceClick? ==> forall i | 0 <= i < |dir| :: r.dir[i] == dir[i]
    ensures s.body.Some? ==> r.count <= TargetCount(Events(s.body.value))
  {
    match s.body
    case None => Downloads(dir, 0)
    case Some(doc) => ProcessEvents(rule, Events(doc), 0, clicks, Downloads(dir, 0))
  }

  /** The whole scrape: only the first `ld+json` script is processed (the loop breaks
      after it whether its events succeeded or its parse failed). The script itself is
      `Run(WholeFolder, ...)`. */
  function Run(rule: ClaimRule, scripts: seq<Script>, clicks: nat -> Click, dir: seq<PdfFile>): (r: Downloads)
    ensures Find(scripts, IsLdJson) == |scripts| ==> r == Downloads(dir, 0)
    ensures Find(scripts, IsLdJson) < |scripts| ==> r == RunScript(rule, scripts[Find(scripts, IsLdJson)], clicks, dir)
    ensures |r.dir| >= |dir|
    ensures rule.SinceClick? ==> forall i | 0 <= i < |dir| :: r.dir[i] == dir[i]
  {
    var k := Find(scripts, IsLdJson);
    if k == |scripts| then Downloads(dir, 0) else RunScript(rule, scripts[k], clicks, dir)
  }

  /** Scripts after the first `ld+json` one are never looked at. */
  lemma RunFirstOnly(rule: ClaimRule, pre: seq<Script>, s: Script, post: seq<Script>, clicks: nat -> Click, dir: seq<PdfFile>)
    requires forall i | 0 <= i < |pre| :: !IsLdJson(pre[i])
    requires IsLdJson(s)
    ensures Run(rule, pre + [s] + post, clicks, dir) == RunScript(rule, s, clicks, dir)
  {
    FindAfter(pre, s, post, IsLdJson);
  }

  /** A page without an `ld+json` script downloads nothing. */
  lemma RunNoLdJson(rule: ClaimRule, scripts: seq<Script>, clicks: nat -> Click, dir: seq<PdfFile>)
    requires forall i | 0 <= i < |scripts| :: !IsLdJson(scripts[i])
    ensures Run(rule, scripts, clicks, dir) == Downloads(dir, 0)
  {
    assert Find(scripts, IsLdJson) == |scripts|;
  }

  /** A top-level object is processed as the one-element list holding it. */
  lemma SingleEventWrapped(rule: ClaimRule, t: string, v: Value, clicks: nat -> Click, dir: seq<PdfFile>)
    ensures RunScript(rule, Script(t, Some(Single(v))), clicks, dir) == RunScript(rule, Script(t, Some(Many([v]))), clicks, dir)
    ensures RunScript(rule, Script(t, Some(Single(v))), clicks, dir) == EventStep(rule, v, clicks(0), Downloads(dir, 0))
  {
    assert Events(Single(v)) == [v];
    var st := EventStep(rule, v, clicks(0), Downloads(dir, 0));
    assert [v][1..] == [];
    assert ProcessEvents(rule, [v], 0, clicks, Downloads(dir, 0)) == ProcessEvents(rule, [], 1, clicks, st);
  }

}

=== FILE: boarddocs2.dfy ===
/**
 The second BoardDocs downloader (`download_boarddocs2.py`). Its primary path walks
 the page's `Agenda` links, dates each by the first nearby text mentioning 2024 or
 2025, opens the agenda in a second browser tab and saves the first PDF link there as
 `agenda_<date>.pdf`. Only when no agenda link appears does it fall back to the
 JSON-LD events, filtered as in the first script.

 The browser is reduced to its number of open windows and the focused one; what
 happens in the second tab is an input (`TabOutcome`).
 */
module Boarddocs2 {
  import opened Options
  import opened Seqs
  import opened Text
  import opened JsonLd

  /** Open windows and the index of the focused one in `driver.window_handles`. */
  datatype Browser = Browser(windows: nat, focus: nat)

  /** Only the page window, focused: the state before and after every item. */
  const Base: Browser := Browser(1, 0)

  /** How one agenda's tab went: `window.open` made no second window (so
      `window_handles[1]` raises), the wait for a `.pdf` link raised, the download
      or the file write raised, or the file was saved. */
  datatype TabOutcome = NoTab | NoPdfLink | FetchFailed | Saved

  /** The `except` handler of both loops: close the focused tab and return to the
      first window when more than one window is open. */
  function Recover(b: Browser): (r: Browser)
    ensures b.windows <= 1 ==> r == b
    ensures b.windows == 2 ==> r == Base
  {
    if b.windows > 1 then Browser(b.windows - 1, 0) else b
  }

  /** One agenda in a second tab: open it, switch to it, and on success close it and
      switch back; on any exception the handler recovers. The flag says whether a
      file was written. */
  function VisitTab(b: Browser, o: TabOutcome): (r: (Browser, bool))
    ensures b == Base ==> r.0 == Base
    ensures b == Base ==> (r.1 <==> o == Saved)
  {
    var withTab := if o == NoTab then b else b.(windows := b.windows + 1);
    if withTab.windows < 2 then (Recover(withTab), false)
    else
      var onTab := withTab.(focus := 1);
      if o == Saved then (Browser(onTab.windows - 1, 0), true) else (Recover(onTab), false)
  }

  /** The counter, the files written in order, and the browser. */
  datatype State = State(browser: Browser, count: nat, written: seq<string>)

  const Start: State := State(Base, 0, [])

  /** `f"agenda_{date_text.replace('/', '_')}.pdf"`: no event name, so everything with
      the same date text lands in the same file. */
  function AgendaFilename(dateText: string): string {
    "agenda_" + ReplaceChar(dateText, '/', '_') + ".pdf"
  }

  /** Two date texts give the same file name exactly when they agree once `/` is
      turned into `_`. */
  lemma AgendaFilenameInjective(a: string, b: string)
    ensures AgendaFilename(a) == AgendaFilename(b) <==> ReplaceChar(a, '/', '_') == ReplaceChar(b, '/', '_')
  {
    var fa, fb := AgendaFilename(a), AgendaFilename(b);
    if fa == fb {
      assert fa[7..|fa| - 4] == ReplaceChar(a, '/', '_');
      assert fb[7..|fb| - 4] == ReplaceChar(b, '/', '_');
    }
  }

  /** One item that has a date text: visit its tab and, when the file was saved, count
      it and record its name. */
  function SaveItem(st: State, dateText: string, o: TabOutcome): (r: State)
    ensures r.count + |st.written| == st.count + |r.written|
    ensures st.browser == Base ==> r.browser == Base
    ensures st.browser == Base ==>
      r.written == st.written + (if o == Saved then [AgendaFilename(dateText)] else [])
  {
    var (b, saved) := VisitTab(st.browser, o);
    if saved then State(b, st.count + 1, st.written + [AgendaFilename(dateText)])
    else State(b, st.count, st.written)
  }

  /** `text and ("2024" in text or "2025" in text)` for `text = elem.text.strip()`. */
  predicate IsDateText(t: string) {
    var s := Strip(t);
    s != [] && InTargetYears(s)
  }

  /** The date of an agenda link: the first descendant text of its nearest `tr` or
      `div` ancestor that mentions 2024 or 2025, stripped; `None` skips the link. */
  function PickDate(texts: seq<string>): (r: Option<string>)
    ensures r.None? <==> forall i | 0 <= i < |texts| :: !IsDateText(texts[i])
    ensures r.Some? ==> r.value != [] && InTargetYears(r.value)
    ensures r.Some? ==> exists k | 0 <= k < |texts| ::
      r.value == Strip(texts[k]) && forall i | 0 <= i < k :: !IsDateText(texts[i])
  {
    var k := Find(texts, IsDateText);
    if k == |texts| then None else Some(Strip(texts[k]))
  }

  /** Texts after the first dated one do not matter. */
  lemma PickDateFirst(pre: seq<string>, t: string, post: seq<string>)
    requires forall i | 0 <= i < |pre| :: !IsDateText(pre[i])
    requires IsDateText(t)
    ensures PickDate(pre + [t] + post) == Some(Strip(t))
  {
    FindAfter(pre, t, post, IsDateText);
    assert (pre + [t] + post)[|pre|] == t;
  }

  /** An agenda link, given by the texts under its nearest `tr` or `div` ancestor in
      document order. */
  datatype AgendaLink = AgendaLink(texts: seq<string>)

  /** One agenda link: skipped without a date text, otherwise its tab is visited. */
  function LinkStep(link: AgendaLink, o: TabOutcome, st: State): (r: State)
    ensures r.count + |st.written| == st.count + |r.written|
    ensures st.browser == Base ==> r.browser == Base
    ensures st.browser == Base ==> r.written == st.written + LinkFiles(link, o)
  {
    match PickDate(link.texts)
    case None => assert st.written + [] == st.written; st
    case Some(dt) => SaveItem(st, dt, o)
  }

  /** What one agenda link writes: its file when it has a date text and its tab saved. */
  function LinkFiles(link: AgendaLink, o: TabOutcome): (r: seq<string>)
    ensures |r| <= 1
  {
    match PickDate(link.texts)
    case None => []
    case Some(dt) => if o == Saved then [AgendaFilename(dt)] else []
  }

  /** The primary loop: link `i` meets tab outcome `tab(i)`; every exception is
      handled inside the loop, so each link is tried. */
  function Primary(links: seq<AgendaLink>, i: nat, tab: nat -> TabOutcome, st: State): (r: State)
    ensures r.count + |st.written| == st.count + |r.written|
    ensures st.browser == Base ==> r.browser == Base
    decreases |links|
  {
    if links == [] then st
    else Primary(links[1..], i + 1, tab, LinkStep(links[0], tab(i), st))
  }

  /** What the primary loop writes, by the links alone: one file per dated link whose
      tab saved, in link order. */
  function PrimaryFiles(links: seq<AgendaLink>, i: nat, tab: nat -> TabOutcome): (r: seq<string>)
    ensures |r| <= |links|
    decreases |links|
  {
    if links == [] then [] else LinkFiles(links[0], tab(i)) + PrimaryFiles(links[1..], i + 1, tab)
  }

  lemma {:induction false} PrimaryWrites(links: seq<AgendaLink>, i: nat, tab: nat -> TabOutcome, st: State)
    requires st.browser == Base
    ensures Primary(links, i, tab, st).written == st.written + PrimaryFiles(links, i, tab)
    decreases |links|
  {
    if links != [] {
      var next := LinkStep(links[0], tab(i), st);
      PrimaryWrites(links[1..], i + 1, tab, next);
      var here, rest := LinkFiles(links[0], tab(i)), PrimaryFiles(links[1..], i + 1, tab);
      assert PrimaryFiles(links, i, tab) == here + rest;
      AppendAssoc(st.written, here, rest);
    } else {
      assert st.written + [] == st.written;
    }
  }

  /** Where one script's event loop stopped: the state, and whether an exception
      ended the loop before the last event. */
  datatype Pass = Pass(st: State, abandoned: bool)

  /** The fallback's event loop for script `i`: event `j` meets tab outcome
      `tab(i, j)`. A skipped event continues the loop; an exception (a non-object, a
      non-string start date, a tab that did not save) ends it. */
  function ScriptEvents(events: seq<Value>, i: nat, j: nat, tab: (nat, nat) -> TabOutcome, st: State): (r: Pass)
    ensures r.st.count + |st.written| == st.count + |r.st.written|
    ensures st.browser == Base ==> r.st.browser == Base
    decreases |events|
  {
    if events == [] then Pass(st, false)
    else
      match Select(events[0])
      case Skip => ScriptEvents(events[1..], i, j + 1, tab, st)
      case Raise => Pass(st.(browser := Recover(st.browser)), true)
      case Target(dt) =>
        var next := SaveItem(st, dt, tab(i, j));
        if tab(i, j) == Saved then ScriptEvents(events[1..], i, j + 1, tab, next)
        else Pass(next, true)
  }

  /** An event loop over `a + b` is the loop over `a`, then, unless `a` ended it,
      the loop over `b`. */
  lemma {:induction false} ScriptEventsAppend(a: seq<Value>, b: seq<Value>, i: nat, j: nat, tab: (nat, nat) -> TabOutcome, st: State)
    ensures var ra := ScriptEvents(a, i, j, tab, st);
      ScriptEvents(a + b, i, j, tab, st) == if ra.abandoned then ra else ScriptEvents(b, i, j + |a|, tab, ra.st)
    decreases |a|
  {
    if a == [] {
      assert a + b == b;
    } else {
      assert (a + b)[0] == a[0];
      assert (a + b)[1..] == a[1..] + b;
      match Select(a[0])
      case Skip =>
        ScriptEventsAppend(a[1..], b, i, j + 1, tab, st);
      case Raise =>
      case Target(dt) =>
        if tab(i, j) == Saved {
          ScriptEventsAppend(a[1..], b, i, j + 1, tab, SaveItem(st, dt, tab(i, j)));
        }
    }
  }

  /** The fallback's script loop: every script is visited, and a failure inside one
      script (its body not parsing, or an event exception) is handled at the end of
      that script. */
  function Fallback(scripts: seq<Script>, i: nat, tab: (nat, nat) -> TabOutcome, st: State): (r: State)
    ensures r.count + |st.written| == st.count + |r.written|
    ensures st.browser == Base ==> r.browser == Base
    decreases |scripts|
  {
    if scripts == [] then st
    else Fallback(scripts[1..], i + 1, tab, ScriptStep(scripts[0], i, tab, st))
  }

  /** One script of the fallback loop. */
  function ScriptStep(s: Script, i: nat, tab: (nat, nat) -> TabOutcome, st: State): (r: State)
    ensures r.count + |st.written| == st.count + |r.written|
    ensures st.browser == Base ==> r.browser == Base
    ensures !IsLdJson(s) ==> r == st
  {
    if !IsLdJson(s) then st
    else
      match s.body
      case None => st.(browser := Recover(st.browser))
      case Some(doc) => ScriptEvents(Events(doc), i, 0, tab, st).st
  }

  /** The script loop over `a + b` runs the loop over `b` from wherever `a` left off:
      nothing that happens in one script stops the scripts after it. */
  lemma {:induction false} FallbackAppend(a: seq<Script>, b: seq<Script>, i: nat, tab: (nat, nat) -> TabOutcome, st: State)
    ensures Fallback(a + b, i, tab, st) == Fallback(b, i + |a|, tab, Fallback(a, i, tab, st))
    decreases |a|
  {
    if a == [] {
      assert a + b == b;
    } else {
      assert (a + b)[0] == a[0];
      assert (a + b)[1..] == a[1..] + b;
      FallbackAppend(a[1..], b, i + 1, tab, ScriptStep(a[0], i, tab, st));
    }
  }

  /** What the event loop of script `i` writes, by the events alone: one file per
      saved target event, up to the first exception. */
  function EventFiles(events: seq<Value>, i: nat, j: nat, tab: (nat, nat) -> TabOutcome): seq<string>
    decreases |events|
  {
    if events == [] then []
    else
      match Select(events[0])
      case Skip => EventFiles(events[1..], i, j + 1, tab)
      case Raise => []
      case Target(dt) =>
        if tab(i, j) == Saved then [AgendaFilename(dt)] + EventFiles(events[1..], i, j + 1, tab) else []
  }

  /** What the fallback writes, script by script. */
  function FallbackFiles(scripts: seq<Script>, i: nat, tab: (nat, nat) -> TabOutcome): seq<string>
    decreases |scripts|
  {
    if scripts == [] then []
    else
      var s := scripts[0];
      var here := if IsLdJson(s) && s.body.Some? then EventFiles(Events(s.body.value), i, 0, tab) else [];
      here + FallbackFiles(scripts[1..], i + 1, tab)
  }

  lemma {:induction false} ScriptEventsWrites(events: seq<Value>, i: nat, j: nat, tab: (nat, nat) -> TabOutcome, st: State)
    requires st.browser == Base
    ensures ScriptEvents(events, i, j, tab, st).st.written == st.written + EventFiles(events, i, j, tab)
    decreases |events|
  {
    if events != [] {
      match Select(events[0])
      case Skip =>
        ScriptEventsWrites(events[1..], i, j + 1, tab, st);
      case Raise =>
      case Target(dt) =>
        if tab(i, j) == Saved {
          var next := SaveItem(st, dt, tab(i, j));
          ScriptEventsWrites(events[1..], i, j + 1, tab, next);
        }
    }
  }

  lemma {:induction false} FallbackWrites(scripts: seq<Script>, i: nat, tab: (nat, nat) -> TabOutcome, st: State)
    requires st.browser == Base
    ensures Fallback(scripts, i, tab, st).written == st.written + FallbackFiles(scripts, i, tab)
    decreases |scripts|
  {
    if scripts != [] {
      var s := scripts[0];
      if IsLdJson(s) && s.body.Some? {
        ScriptEventsWrites(Events(s.body.value), i, 0, tab, st);
      }
      FallbackWrites(scripts[1..], i + 1, tab, ScriptStep(s, i, tab, st));
    }
  }

  /** The whole scrape. `links` is `None` when the wait for agenda links raised; only
      then are the JSON-LD scripts read. */
  function Run(links: Option<seq<AgendaLink>>, scripts: seq<Script>,
               linkTab: nat -> TabOutcome, eventTab: (nat, nat) -> TabOutcome): (r: State)
    ensures r.browser == Base
    ensures r.count == |r.written|
    ensures links.Some? ==> r.written == PrimaryFiles(links.value, 0, linkTab)
    ensures links.None? ==> r.written == FallbackFiles(scripts, 0, eventTab)
  {
    match links
    case Some(ls) =>
      PrimaryWrites(ls, 0, linkTab, Start);
      Primary(ls, 0, linkTab, Start)
    case None =>
      FallbackWrites(scripts, 0, eventTab, Start);
      Fallback(scripts, 0, eventTab, Start)
  }

}

=== FILE: dates.dfy ===
/**
 Calendar dates as Python's `datetime.date` accepts them, and their ISO spelling
 `strftime('%Y-%m-%d')`, which both San Ramon scripts use to name files.
 */
module Dates {
  import opened Options
  import opened Text

  datatype Date = Date(year: int, month: int, day: int)

  predicate IsLeapYear(y: int) {
    y % 4 == 0 && (y % 100 != 0 || y % 400 == 0)
  }

  function DaysInMonth(y: int, m: int): int
    requires 1 <= m <= 12
  {
    if m == 2 then (if IsLeapYear(y) then 29 else 28)
    else if m == 4 || m == 6 || m == 9 || m == 11 then 30
    else 31
  }

  /** The dates `datetime.date` constructs without raising `ValueError`:
      years MINYEAR 1 to MAXYEAR 9999, proleptic Gregorian month lengths. */
  predicate IsValid(d: Date) {
    && 1 <= d.year <= 9999
    && 1 <= d.month <= 12
    && 1 <= d.day <= DaysInMonth(d.year, d.month)
  }

  /** `d.strftime('%Y-%m-%d')`: zero-padded four-digit year, two-digit month and day. */
  function IsoDate(d: Date): (r: string)
    requires IsValid(d)
    ensures |r| == 10
  {
    PadText(d.year, 4) + "-" + PadText(d.month, 2) + "-" + PadText(d.day, 2)
  }

  /** Reads a `YYYY-MM-DD` string back; `None` for anything that is not one. */
  function ParseIsoDate(s: string): (r: Option<Date>)
    ensures r.Some? ==> IsValid(r.value)
  {
    if |s| == 10 && s[4] == '-' && s[7] == '-'
       && AllDigits(s[..4]) && AllDigits(s[5..7]) && AllDigits(s[8..])
    then
      var d := Date(DigitsValue(s[..4]), DigitsValue(s[5..7]), DigitsValue(s[8..]));
      if IsValid(d) then Some(d) else None
    else None
  }

  /** The ISO spelling is ten characters, uses no characters but digits and `-`,
      and reads back as the date it spells. */
  lemma IsoDateRoundTrip(d: Date)
    requires IsValid(d)
    ensures |IsoDate(d)| == 10
    ensures forall i | 0 <= i < 10 :: IsDigit(IsoDate(d)[i]) || IsoDate(d)[i] == '-'
    ensures ParseIsoDate(IsoDate(d)) == Some(d)
  {
    var y, m, dd := PadText(d.year, 4), PadText(d.month, 2), PadText(d.day, 2);
    var s := IsoDate(d);
    assert |y| == 4 && |m| == 2 && |dd| == 2;
    assert s[..4] == y;
    assert s[5..7] == m;
    assert s[8..] == dd;
    forall i | 0 <= i < 10 ensures IsDigit(s[i]) || s[i] == '-' {
      if i < 4 { assert s[i] == y[i]; }
      else if 4 < i < 7 { assert s[i] == m[i - 5]; }
      else if 7 < i { assert s[i] == dd[i - 8]; }
    }
  }

  lemma YearText(n: nat)
    requires n == 2024
    ensures NatText(n) == "2024"
  {
    assert NatText(2) == "2";
    assert NatText(20) == NatText(2) + "0";
    assert NatText(202) == NatText(20) + "2";
    assert NatText(2024) == NatText(202) + "4";
  }

  /** Month and day are padded to two digits: March 5, 2024 is `2024-03-05`. */
  lemma IsoDateExample(d: Date)
    requires d == Date(2024, 3, 5)
    ensures IsoDate(d) == "2024-03-05"
  {
    YearText(2024);
    assert NatText(3) == "3" && NatText(5) == "5";
    assert PadText(3, 2) == "03";
    assert PadText(5, 2) == "05";
  }

  /** Two valid dates share an ISO spelling exactly when they are the same date. */
  lemma IsoDateInjective(a: Date, b: Date)
    requires IsValid(a) && IsValid(b)
    ensures IsoDate(a) == IsoDate(b) <==> a == b
  {
    IsoDateRoundTrip(a);
    IsoDateRoundTrip(b);
  }

  // ----- `strptime` numeric directives -----

  /** What the `%m` directive of `strptime` matches: `1`-`9`, `01`-`09`, `10`-`12`. */
  predicate MonthField(m: string) {
    || (|m| == 1 && '1' <= m[0] <= '9')
    || (|m| == 2 && m[0] == '0' && '1' <= m[1] <= '9')
    || (|m| == 2 && m[0] == '1' && '0' <= m[1] <= '2')
  }

  /** What the `%d` directive matches: `1`-`9`, `01`-`09`, `10`-`31`, or a
      space followed by `1`-`9`. */
  predicate DayField(d: string) {
    || (|d| == 1 && '1' <= d[0] <= '9')
    || (|d| == 2 && d[0] == '0' && '1' <= d[1] <= '9')
    || (|d| == 2 && '1' <= d[0] <= '2' && IsDigit(d[1]))
    || (|d| == 2 && d[0] == '3' && '0' <= d[1] <= '1')
    || (|d| == 2 && d[0] == ' ' && '1' <= d[1] <= '9')
  }

  function DayValue(d: string): nat
    requires DayField(d)
  {
    if d[0] == ' ' then DigitValue(d[1])
    else
      assert AllDigits(d);
      DigitsValue(d)
  }

  /** A two-digit string read as a number. */
  lemma TwoDigits(s: string)
    requires |s| == 2 && AllDigits(s)
    ensures DigitsValue(s) == 10 * DigitValue(s[0]) + DigitValue(s[1])
  {
    var a := s[..1];
    assert s[..|s| - 1] == a;
    assert a[..|a| - 1] == [];
    assert DigitsValue(a) == DigitValue(a[0]);
  }

  /** `str(n)` of a month number is what `%m` matches, and reads back as `n`. */
  lemma MonthTextField(n: nat)
    requires 1 <= n <= 12
    ensures MonthField(NatText(n)) && DigitsValue(NatText(n)) == n
  {
    var s := NatText(n);
    if |s| == 2 { TwoDigits(s); }
  }

  /** `str(n)` of a day number is what `%d` matches, and reads back as `n`. */
  lemma DayTextField(n: nat)
    requires 1 <= n <= 31
    ensures DayField(NatText(n)) && DayValue(NatText(n)) == n
  {
    var s := NatText(n);
    if |s| == 2 { TwoDigits(s); }
  }

}

=== FILE: gemini.dfy ===
/**
 The San Ramon agenda-packet downloader (`gemini_sanramon.py`): it requests the
 meeting calendar month by month, follows every meeting link, reads the meeting's
 date (`"March 5, 2024"`) and saves the page's "Agenda Packet" as
 `<YYYY-MM-DD>_SanRamon_AgendaPacket.pdf`.

 The network is an input (`Web`): what each calendar month and meeting page
 returned, whether a packet download succeeded, and `urljoin`, which is kept opaque.
 */
module Gemini {
  import opened Options
  import opened Seqs
  import opened Text
  import opened Dates

  // ----- Calendar months -----

  type YearMonth = (int, int)

  /** The twelve months of one year, January first. */
  function YearMonths(y: int): (r: seq<YearMonth>)
    ensures |r| == 12
    ensures forall k | 0 <= k < 12 :: r[k] == (y, k + 1)
  {
    seq(12, k => (y, k + 1))
  }

  /** The pairs the nested loops `for year in range(start_year, end_year + 1)` and
      `for month in range(1, 13)` visit, in visiting order. */
  function MonthPairs(startYear: int, endYear: int): (r: seq<YearMonth>)
    ensures |r| == if startYear <= endYear then 12 * (endYear - startYear + 1) else 0
    ensures forall i | 0 <= i < |r| :: startYear <= r[i].0 <= endYear && 1 <= r[i].1 <= 12
    decreases endYear - startYear
  {
    if startYear > endYear then [] else YearMonths(startYear) + MonthPairs(startYear + 1, endYear)
  }

  /** Every month of every year in the range is visited, and nothing else. */
  lemma {:induction false} MonthPairsMembers(startYear: int, endYear: int, y: int, m: int)
    ensures (y, m) in MonthPairs(startYear, endYear) <==> startYear <= y <= endYear && 1 <= m <= 12
    decreases endYear - startYear
  {
    if startYear <= endYear {
      var head, rest := YearMonths(startYear), MonthPairs(startYear + 1, endYear);
      assert MonthPairs(startYear, endYear) == head + rest;
      MonthPairsMembers(startYear + 1, endYear, y, m);
      if y == startYear && 1 <= m <= 12 {
        assert head[m - 1] == (y, m);
      }
    }
  }

  /** `a` comes strictly before `b` in (year, month) order. */
  predicate Before(a: YearMonth, b: YearMonth) {
    a.0 < b.0 || (a.0 == b.0 && a.1 < b.1)
  }

  /** Strictly ascending in (year, month) order. */
  predicate Ascending(r: seq<YearMonth>) {
    forall i, j | 0 <= i < j < |r| :: Before(r[i], r[j])
  }

  /** The visiting order is strictly ascending, so no month is visited twice. */
  lemma {:induction false} MonthPairsAscending(startYear: int, endYear: int)
    ensures Ascending(MonthPairs(startYear, endYear))
    decreases endYear - startYear
  {
    if startYear <= endYear {
      var head, rest := YearMonths(startYear), MonthPairs(startYear + 1, endYear);
      var r := head + rest;
      assert MonthPairs(startYear, endYear) == r;
      MonthPairsAscending(startYear + 1, endYear);
      forall i, j | 0 <= i < j < |r| ensures Before(r[i], r[j]) {
        if j < 12 {
          assert r[i] == head[i] == (startYear, i + 1);
          assert r[j] == head[j] == (startYear, j + 1);
        } else if i < 12 {
          assert r[i] == head[i] == (startYear, i + 1);
          assert r[j] == rest[j - 12] && rest[j - 12].0 >= startYear + 1;
        } else {
          assert r[i] == rest[i - 12] && r[j] == rest[j - 12];
          assert 0 <= i - 12 < j - 12 < |rest|;
          assert Before(rest[i - 12], rest[j - 12]);
        }
      }
    }
  }

  const CalendarBase: string := "https://sanramonca.iqm2.com/Citizens/Calendar.aspx"

  /** `urllib.parse.urlencode({"Year": year, "Month": month})`: integers are written
      with `str`, and their digits and `-` need no quoting. */
  function CalendarQuery(p: YearMonth): string {
    "Year=" + IntText(p.0) + "&Month=" + IntText(p.1)
  }

  /** `f"{base_url}?{…}"`. */
  function CalendarUrl(p: YearMonth): string {
    CalendarBase + "?" + CalendarQuery(p)
  }

  predicate IsAmp(c: char) { c == '&' }

  /** The year and month can be read back from the query: the year is the text
      between `Year=` and the only `&`, the month the text after `&Month=`. */
  lemma CalendarQueryParts(y: string, m: string)
    requires forall i | 0 <= i < |y| :: IsDigit(y[i]) || y[i] == '-'
    ensures var q := "Year=" + y + "&Month=" + m;
      Find(q, IsAmp) == 5 + |y| && q[5..5 + |y|] == y && q[|y| + 12..] == m
  {
    var a := "Year=" + y;
    var q := "Year=" + y + "&Month=" + m;
    assert q == a + ['&'] + ("Month=" + m);
    assert forall i | 0 <= i < |a| :: !IsAmp(a[i]) by {
      forall i | 0 <= i < |a| ensures !IsAmp(a[i]) {
        if i >= 5 { assert a[i] == y[i - 5]; }
      }
    }
    FindAfter(a, '&', "Month=" + m, IsAmp);
  }

  lemma DropPrefix(p: string, x: string, y: string)
    requires p + x == p + y
    ensures x == y
  {
    assert x == (p + x)[|p|..];
    assert y == (p + y)[|p|..];
  }

  /** Different months are requested at different URLs. */
  lemma CalendarUrlInjective(a: YearMonth, b: YearMonth)
    ensures CalendarUrl(a) == CalendarUrl(b) <==> a == b
  {
    if CalendarUrl(a) == CalendarUrl(b) {
      DropPrefix(CalendarBase + "?", CalendarQuery(a), CalendarQuery(b));
      CalendarQueryInjective(a, b);
    }
  }

  lemma CalendarQueryInjective(a: YearMonth, b: YearMonth)
    requires CalendarQuery(a) == CalendarQuery(b)
    ensures a == b
  {
    CalendarQueryParts(IntText(a.0), IntText(a.1));
    CalendarQueryParts(IntText(b.0), IntText(b.1));
    IntTextInjective(a.0, b.0);
    IntTextInjective(a.1, b.1);
  }

  /** The calendar URLs of the visited months, in request order. */
  function CalendarUrls(pairs: seq<YearMonth>): (r: seq<string>)
    ensures |r| == |pairs| && forall i | 0 <= i < |pairs| :: r[i] == CalendarUrl(pairs[i])
    decreases |pairs|
  {
    if pairs == [] then [] else [CalendarUrl(pairs[0])] + CalendarUrls(pairs[1..])
  }

  // ----- The meeting date -----

  /** The English month names `%B` matches, ignoring case. */
  const MonthNames: seq<string> := ["January", "February", "March", "April", "May", "June", "July",
                                    "August", "September", "October", "November", "December"]

  /** Equal up to ASCII case, as the `re.IGNORECASE` pattern of `strptime` compares. */
  predicate SameLetters(a: string, b: string) {
    |a| == |b| && forall i | 0 <= i < |a| :: LowerChar(a[i]) == LowerChar(b[i])
  }

  /** The month a `%B` token names, `0` for none. */
  function MonthNumber(name: string): (m: nat)
    ensures m <= 12
    ensures 1 <= m ==> SameLetters(name, MonthNames[m - 1])
    ensures m == 0 ==> forall k | 0 <= k < 12 :: !SameLetters(name, MonthNames[k])
  {
    if SameLetters(name, "January") then 1
    else if SameLetters(name, "February") then 2
    else if SameLetters(name, "March") then 3
    else if SameLetters(name, "April") then 4
    else if SameLetters(name, "May") then 5
    else if SameLetters(name, "June") then 6
    else if SameLetters(name, "July") then 7
    else if SameLetters(name, "August") then 8
    else if SameLetters(name, "September") then 9
    else if SameLetters(name, "October") then 10
    else if SameLetters(name, "November") then 11
    else if SameLetters(name, "December") then 12
    else 0
  }

  predicate IsComma(c: char) { c == ',' }

  /** `datetime.strptime(t, "%B %d, %Y")`. The pattern `strptime` compiles is a month
      name (any case), one or more whitespace characters, the `%d` day, a comma, one or
      more whitespace characters and exactly four digits, and it must cover all of `t`;
      the date must then exist. Anything else raises `ValueError`, here `None`. */
  function ParseLongDate(t: string): (r: Option<Date>)
    ensures r.Some? ==> IsValid(r.value)
  {
    var k := Find(t, IsSpace);
    if k == |t| then None
    else ParseDayYear(MonthNumber(t[..k]), TrimStart(t[k..], IsSpace))
  }

  /** The rest of the pattern once the month name and the whitespace after it are read. */
  function ParseDayYear(month: nat, rest: string): (r: Option<Date>)
    ensures r.Some? ==> IsValid(r.value) && r.value.month == month
  {
    var c := Find(rest, IsComma);
    if month == 0 || c == |rest| then None
    else
      var day, after := rest[..c], rest[c + 1..];
      if !DayField(day) || after == [] || !IsSpace(after[0]) then None
      else
        var year := TrimStart(after, IsSpace);
        if |year| != 4 || !AllDigits(year) then None
        else
          var d := Date(DigitsValue(year), month, DayValue(day));
          if IsValid(d) then Some(d) else None
  }

  predicate AllSpace(s: string) {
    forall i | 0 <= i < |s| :: IsSpace(s[i])
  }

  predicate IsLetter(c: char) {
    ('a' <= c <= 'z') || ('A' <= c <= 'Z')
  }

  predicate AllLetters(s: string) {
    forall i | 0 <= i < |s| :: IsLetter(s[i])
  }

  lemma LettersNotSpace(s: string)
    requires AllLetters(s)
    ensures forall i | 0 <= i < |s| :: !IsSpace(s[i])
  {
  }

  /** The day token ends at the only comma. */
  lemma CommaSplit(day: string, tail: string)
    requires DayField(day)
    ensures var rest := day + "," + tail;
      Find(rest, IsComma) == |day| && rest[..|day|] == day && rest[|day| + 1..] == tail
  {
    var rest := day + "," + tail;
    assert rest == day + [','] + tail;
    FindAfter(day, ',', tail, IsComma);
  }

  /** The day, comma, whitespace and year that follow the first whitespace run. */
  lemma DayAndYear(month: nat, day: string, sep: string, year: string)
    requires 1 <= month
    requires DayField(day)
    requires sep != [] && AllSpace(sep)
    requires |year| == 4 && AllDigits(year)
    requires IsValid(Date(DigitsValue(year), month, DayValue(day)))
    ensures ParseDayYear(month, day + "," + sep + year) == Some(Date(DigitsValue(year), month, DayValue(day)))
  {
    CommaSplit(day, sep + year);
    assert day + "," + sep + year == day + "," + (sep + year);
    TrimStartAfter(sep, year, IsSpace);
  }

  /** The month name ends at the first whitespace, and the whole whitespace run
      after it is skipped. */
  lemma NameAndSpace(name: string, ws: string, rest: string)
    requires AllLetters(name)
    requires ws != [] && AllSpace(ws)
    requires rest == [] || !IsSpace(rest[0])
    ensures var t := name + ws + rest;
      && Find(t, IsSpace) == |name| && |name| < |t|
      && t[..|name|] == name
      && TrimStart(t[|name|..], IsSpace) == rest
  {
    var t := name + ws + rest;
    LettersNotSpace(name);
    assert t == name + [ws[0]] + (ws[1..] + rest);
    FindAfter(name, ws[0], ws[1..] + rest, IsSpace);
    assert t[|name|..] == ws + rest;
    TrimStartAfter(ws, rest, IsSpace);
  }

  /** Every spelling the pattern accepts is read as the date it names: any case of
      the month name, any whitespace runs, any `%d` form of the day. */
  lemma ParseLongDateOf(name: string, ws: string, day: string, sep: string, year: string)
    requires AllLetters(name) && MonthNumber(name) != 0
    requires ws != [] && AllSpace(ws)
    requires DayField(day) && IsDigit(day[0])
    requires sep != [] && AllSpace(sep)
    requires |year| == 4 && AllDigits(year)
    requires IsValid(Date(DigitsValue(year), MonthNumber(name), DayValue(day)))
    ensures ParseLongDate(name + ws + day + "," + sep + year) == Some(Date(DigitsValue(year), MonthNumber(name), DayValue(day)))
  {
    var rest := day + "," + sep + year;
    assert name + ws + day + "," + sep + year == name + ws + rest;
    NameAndSpace(name, ws, rest);
    DayAndYear(MonthNumber(name), day, sep, year);
  }

  /** The calendar's own spelling of a date: full month name, `str` of the day, a
      comma, a space and the four-digit year. */
  function LongDateText(d: Date): string
    requires IsValid(d)
  {
    MonthNames[d.month - 1] + " " + NatText(d.day) + ", " + PadText(d.year, 4)
  }

  /** `MonthNumber` finds each month under its own name. */
  lemma MonthNumberOfName(m: nat)
    requires 1 <= m <= 12
    ensures AllLetters(MonthNames[m - 1]) && MonthNumber(MonthNames[m - 1]) == m
  {
    if m <= 6 { FirstHalfNames(m); } else { SecondHalfNames(m); }
  }

  lemma FirstHalfNames(m: nat)
    requires 1 <= m <= 6
    ensures AllLetters(MonthNames[m - 1]) && MonthNumber(MonthNames[m - 1]) == m
  {
    var n := MonthNames[m - 1];
    assert SameLetters(n, n);
    if m == 4 { DiffAt(n, "March", 0); }
  }

  lemma SecondHalfNames(m: nat)
    requires 7 <= m <= 12
    ensures AllLetters(MonthNames[m - 1]) && MonthNumber(MonthNames[m - 1]) == m
  {
    if m <= 9 { SummerNames(m); } else { AutumnNames(m); }
  }

  lemma SummerNames(m: nat)
    requires 7 <= m <= 9
    ensures AllLetters(MonthNames[m - 1]) && MonthNumber(MonthNames[m - 1]) == m
  {
    var n := MonthNames[m - 1];
    assert SameLetters(n, n);
    if m == 7 { DiffAt(n, "June", 2); }
  }

  lemma AutumnNames(m: nat)
    requires 10 <= m <= 12
    ensures AllLetters(MonthNames[m - 1]) && MonthNumber(MonthNames[m - 1]) == m
  {
    var n := MonthNames[m - 1];
    assert SameLetters(n, n);
    if m == 10 { DiffAt(n, "January", 0); }
    else if m == 11 { DiffAt(n, "February", 0); }
    else if m == 12 { DiffAt(n, "February", 0); DiffAt(n, "November", 0); }
  }

  lemma DiffAt(a: string, b: string, i: nat)
    requires i < |a| && i < |b| && LowerChar(a[i]) != LowerChar(b[i])
    ensures !SameLetters(a, b)
  {
  }

  /** Reading the calendar's spelling of a date gives the date back. */
  lemma LongDateRoundTrip(d: Date)
    requires IsValid(d)
    ensures ParseLongDate(LongDateText(d)) == Some(d)
  {
    var name, day, year := MonthNames[d.month - 1], NatText(d.day), PadText(d.year, 4);
    MonthNumberOfName(d.month);
    DayTextField(d.day);
    assert LongDateText(d) == name + " " + day + "," + " " + year;
    ParseLongDateOf(name, " ", day, " ", year);
  }

  const UnknownDate: string := "unknown_date"

  /** `date_str` for a meeting page: the ISO date of the stripped date element's text,
      or `"unknown_date"` when the element is missing or its text does not parse. */
  function DateStr(element: Option<string>): (r: string)
    ensures r == UnknownDate || ParseIsoDate(r).Some?
    ensures element.None? ==> r == UnknownDate
    ensures element.Some? && ParseLongDate(Strip(element.value)).None? ==> r == UnknownDate
    ensures element.Some? && ParseLongDate(Strip(element.value)).Some? ==>
      r == IsoDate(ParseLongDate(Strip(element.value)).value)
      && ParseIsoDate(r) == ParseLongDate(Strip(element.value))
  {
    match element
    case None => UnknownDate
    case Some(text) =>
      match ParseLongDate(Strip(text))
      case None => UnknownDate
      case Some(d) =>
        IsoDateRoundTrip(d);
        IsoDate(d)
  }

  /** A date element holding the calendar's spelling of a date gives its ISO date. */
  lemma DateStrOfLongDate(d: Date)
    requires IsValid(d)
    ensures DateStr(Some(LongDateText(d))) == IsoDate(d)
  {
    LongDateEnds(d);
    StripUnchanged(LongDateText(d));
    LongDateRoundTrip(d);
  }

  /** The calendar's spelling starts with a letter and ends with a digit. */
  lemma LongDateEnds(d: Date)
    requires IsValid(d)
    ensures var t := LongDateText(d); t != [] && !IsSpace(t[0]) && !IsSpace(t[|t| - 1])
  {
    var t := LongDateText(d);
    var name := MonthNames[d.month - 1];
    MonthNumberOfName(d.month);
    assert t[0] == name[0];
    assert t[|t| - 1] == PadText(d.year, 4)[3];
  }

  /** `"March 5, 2024"` names the file `2024-03-05_…`. */
  lemma DateStrExample(name: string, day: string, year: string)
    requires name == "March" && day == "5" && year == "2024"
    ensures DateStr(Some(name + " " + day + ", " + year)) == "2024-03-05"
  {
    var d := Date(2024, 3, 5);
    YearText(2024);
    assert NatText(5) == day;
    MonthNumberOfName(3);
    assert LongDateText(d) == name + " " + day + ", " + year;
    DateStrOfLongDate(d);
    IsoDateExample(d);
  }

  /** Text that starts and ends with a non-space is its own strip. */
  lemma StripUnchanged(t: string)
    requires t != [] && !IsSpace(t[0]) && !IsSpace(t[|t| - 1])
    ensures Strip(t) == t
  {
  }

  // ----- The packet link and the file name -----

  /** An anchor of the meeting page: its `.string` (`None` unless the anchor, or a
      chain of single child tags inside it, has exactly one text child) and its
      `href` (`None` when absent). */
  datatype Anchor = Anchor(text: Option<string>, href: Option<string>)

  /** `text and "Agenda Packet" in text` for the anchor's `.string`. */
  predicate IsPacketAnchor(a: Anchor) {
    a.text.Some? && Contains(a.text.value, "Agenda Packet")
  }

  /** `meeting_soup.find("a", string=…)`: the first packet anchor in document order. */
  function PacketAnchor(anchors: seq<Anchor>): (r: Option<Anchor>)
    ensures r.None? <==> forall i | 0 <= i < |anchors| :: !IsPacketAnchor(anchors[i])
    ensures r.Some? ==> IsPacketAnchor(r.value)
    ensures r.Some? ==> exists k | 0 <= k < |anchors| ::
      r.value == anchors[k] && forall i | 0 <= i < k :: !IsPacketAnchor(anchors[i])
  {
    var k := Find(anchors, IsPacketAnchor);
    if k == |anchors| then None else Some(anchors[k])
  }

  /** Anchors after the first packet anchor are never looked at. */
  lemma PacketAnchorFirst(pre: seq<Anchor>, a: Anchor, post: seq<Anchor>)
    requires forall i | 0 <= i < |pre| :: !IsPacketAnchor(pre[i])
    requires IsPacketAnchor(a)
    ensures PacketAnchor(pre + [a] + post) == Some(a)
  {
    FindAfter(pre, a, post, IsPacketAnchor);
    assert (pre + [a] + post)[|pre|] == a;
  }

  const PacketSuffix: string := "_SanRamon_AgendaPacket.pdf"

  /** `f"{date_str}_SanRamon_AgendaPacket.pdf"`. */
  function PacketFilename(dateStr: string): string {
    dateStr + PacketSuffix
  }

  /** The name depends on the date alone, and different dates give different names;
      so two meetings on one day, or any two whose date did not parse, share a file. */
  lemma PacketFilenameInjective(a: string, b: string)
    ensures PacketFilename(a) == PacketFilename(b) <==> a == b
  {
    if PacketFilename(a) == PacketFilename(b) {
      assert a == PacketFilename(a)[..|a|];
      assert b == PacketFilename(b)[..|b|];
    }
  }

  // ----- The crawl -----

  /** A meeting detail page: the text of the meeting-date `span` (`None` when there
      is no such element) and the page's anchors. */
  datatype MeetingPage = MeetingPage(dateText: Option<string>, anchors: seq<Anchor>)

  /** What the network answers. `calendar` gives the `href` of each `RowLink` anchor
      of a month's page (`None` when the request raised); `meeting` gives a meeting
      page by URL (`None` when the request raised); `packet` says whether downloading
      a packet URL succeeded; `join` is `urllib.parse.urljoin`. */
  datatype Web = Web(
    calendar: YearMonth -> Option<seq<Option<string>>>,
    meeting: string -> Option<MeetingPage>,
    packet: string -> bool,
    join: (string, string) -> string)

  /** The calendar URLs requested, the files written, and whether an uncaught
      exception (a `KeyError` on an anchor without `href`) ended the run. */
  datatype Progress = Progress(requested: seq<string>, files: seq<string>, aborted: bool)

  /** A name the crawl can write: a packet name for `unknown_date` or an ISO date. */
  predicate PacketName(f: string) {
    && EndsWith(f, PacketSuffix)
    && var ds := f[..|f| - |PacketSuffix|];
       ds == UnknownDate || ParseIsoDate(ds).Some?
  }

  lemma PacketNameOf(ds: string)
    requires ds == UnknownDate || ParseIsoDate(ds).Some?
    ensures PacketName(PacketFilename(ds))
  {
    var f := PacketFilename(ds);
    assert f[..|f| - |PacketSuffix|] == ds;
  }

  predicate AllPacketNames(files: seq<string>) {
    forall i | 0 <= i < |files| :: PacketName(files[i])
  }

  lemma PacketNamesAppend(a: seq<string>, b: seq<string>)
    requires AllPacketNames(a) && AllPacketNames(b)
    ensures AllPacketNames(a + b)
  {
    forall i | 0 <= i < |a + b| ensures PacketName((a + b)[i]) {
      if i < |a| { assert (a + b)[i] == a[i]; } else { assert (a + b)[i] == b[i - |a|]; }
    }
  }

  /** One meeting link: the files it wrote and whether it aborted the run. Only
      `RequestException` is caught, so a missing `href` (on the meeting link or on
      the packet anchor) aborts the whole run. */
  function MeetingStep(web: Web, href: Option<string>): (r: (seq<string>, bool))
    ensures |r.0| <= 1 && AllPacketNames(r.0)
    ensures r.1 ==> r.0 == []
    ensures href.None? ==> r == ([], true)
    ensures href.Some? && web.meeting(web.join(CalendarBase, href.value)).None? ==> r == ([], false)
    ensures href.Some? && web.meeting(web.join(CalendarBase, href.value)).Some? ==>
      var url := web.join(CalendarBase, href.value);
      var page := web.meeting(url).value;
      var a := PacketAnchor(page.anchors);
      && (a.None? ==> r == ([], false))
      && (r.1 <==> a.Some? && a.value.href.None?)
      && (r.0 != [] <==> a.Some? && a.value.href.Some? && web.packet(web.join(url, a.value.href.value)))
      && (r.0 != [] ==> r.0 == [PacketFilename(DateStr(page.dateText))])
  {
    match href
    case None => ([], true)
    case Some(h) =>
      var url := web.join(CalendarBase, h);
      match web.meeting(url)
      case None => ([], false)
      case Some(page) =>
        var dateStr := DateStr(page.dateText);
        match PacketAnchor(page.anchors)
        case None => ([], false)
        case Some(a) =>
          match a.href
          case None => ([], true)
          case Some(ph) =>
            if web.packet(web.join(url, ph)) then
              PacketNameOf(dateStr);
              ([PacketFilename(dateStr)], false)
            else ([], false)
  }

  /** A meeting whose date element shows the calendar's spelling of `d` and whose
      packet downloads saves the file named after `d`'s ISO date. */
  lemma MeetingStepOfDate(web: Web, h: string, d: Date)
    requires IsValid(d)
    requires web.meeting(web.join(CalendarBase, h)).Some?
    requires web.meeting(web.join(CalendarBase, h)).value.dateText == Some(LongDateText(d))
    requires var a := PacketAnchor(web.meeting(web.join(CalendarBase, h)).value.anchors);
      a.Some? && a.value.href.Some? && web.packet(web.join(web.join(CalendarBase, h), a.value.href.value))
    ensures MeetingStep(web, Some(h)).0 == [IsoDate(d) + PacketSuffix]
  {
    DateStrOfLongDate(d);
  }

  /** The meeting links of one month in order, up to an abort. */
  function Meetings(web: Web, hrefs: seq<Option<string>>): (r: (seq<string>, bool))
    ensures |r.0| <= |hrefs| && AllPacketNames(r.0)
    decreases |hrefs|
  {
    if hrefs == [] then ([], false)
    else
      var (here, abort) := MeetingStep(web, hrefs[0]);
      if abort then (here, true)
      else
        var (rest, abortLater) := Meetings(web, hrefs[1..]);
        PacketNamesAppend(here, rest);
        (here + rest, abortLater)
  }

  /** One month: its calendar page is requested; a failed request only skips the month. */
  function MonthStep(web: Web, ym: YearMonth): (r: Progress)
    ensures r.requested == [CalendarUrl(ym)] && AllPacketNames(r.files)
    ensures web.calendar(ym).None? ==> r == Progress([CalendarUrl(ym)], [], false)
  {
    match web.calendar(ym)
    case None => Progress([CalendarUrl(ym)], [], false)
    case Some(hrefs) =>
      var (files, abort) := Meetings(web, hrefs);
      Progress([CalendarUrl(ym)], files, abort)
  }

  /** `x` followed by `y`, unless `x` ended the run. */
  function Then(x: Progress, y: Progress): (r: Progress)
    ensures AllPacketNames(x.files) && AllPacketNames(y.files) ==> AllPacketNames(r.files)
  {
    if x.aborted then x
    else
      PacketNamesAppend2(x.files, y.files);
      Progress(x.requested + y.requested, x.files + y.files, y.aborted)
  }

  lemma PacketNamesAppend2(a: seq<string>, b: seq<string>)
    ensures AllPacketNames(a) && AllPacketNames(b) ==> AllPacketNames(a + b)
  {
    if AllPacketNames(a) && AllPacketNames(b) { PacketNamesAppend(a, b); }
  }

  /** The month loop over `pairs`, up to an abort. */
  function Months(web: Web, pairs: seq<YearMonth>): (r: Progress)
    ensures AllPacketNames(r.files)
    ensures !r.aborted ==> r.requested == CalendarUrls(pairs)
    decreases |pairs|
  {
    if pairs == [] then Progress([], [], false)
    else
      Then(MonthStep(web, pairs[0]), Months(web, pairs[1..]))
  }

  lemma ThenAssoc(x: Progress, y: Progress, z: Progress)
    ensures Then(Then(x, y), z) == Then(x, Then(y, z))
  {
    if !x.aborted && !y.aborted {
      AppendAssoc(x.requested, y.requested, z.requested);
      AppendAssoc(x.files, y.files, z.files);
    }
  }

  /** The month loop over `a + b` continues into `b` unless `a` ended the run. */
  lemma {:induction false} MonthsAppend(web: Web, a: seq<YearMonth>, b: seq<YearMonth>)
    ensures Months(web, a + b) == Then(Months(web, a), Months(web, b))
    decreases |a|
  {
    if a == [] {
      assert a + b == b;
      var m := Months(web, b);
      assert Then(Progress([], [], false), m) == Progress([] + m.requested, [] + m.files, m.aborted);
    } else {
      assert (a + b)[0] == a[0];
      assert (a + b)[1..] == a[1..] + b;
      MonthsAppend(web, a[1..], b);
      ThenAssoc(MonthStep(web, a[0]), Months(web, a[1..]), Months(web, b));
    }
  }

  /** A month whose calendar request failed writes nothing and stops nothing: the run
      writes the same files as the run without that month. */
  lemma FailedMonthSkipped(web: Web, a: seq<YearMonth>, ym: YearMonth, b: seq<YearMonth>)
    requires web.calendar(ym).None?
    ensures Months(web, a + [ym] + b).files == Months(web, a + b).files
    ensures Months(web, a + [ym] + b).aborted == Months(web, a + b).aborted
  {
    MonthsAppend(web, a + [ym], b);
    MonthsAppend(web, a, [ym]);
    MonthsAppend(web, a, b);
    var one := Months(web, [ym]);
    assert one == Then(MonthStep(web, ym), Months(web, []));
    assert one == Progress([CalendarUrl(ym)], [], false);
    var x, y := Months(web, a), Months(web, b);
    if !x.aborted {
      assert x.files + [] == x.files;
    }
  }

  /** The whole crawl over `start_year` to `end_year`: unless a missing `href` aborted
      it, every month's calendar page was requested, in ascending order; every file
      written carries a packet name. */
  function Run(web: Web, startYear: int, endYear: int): (r: Progress)
    ensures !r.aborted ==> r.requested == CalendarUrls(MonthPairs(startYear, endYear))
    ensures AllPacketNames(r.files)
  {
    Months(web, MonthPairs(startYear, endYear))
  }

}

=== FILE: jsonld.dfy ===
/**
 The JSON-LD event feed of a BoardDocs public page, as both BoardDocs scripts read it:
 `<script type="application/ld+json">` elements whose parsed body is a list of events
 or a single value, each event an object with optional `@type`, `startDate`, `name`
 and `url` members. Parsing itself (`json.loads`) is taken as given: a script body is
 either a parsed document or `None` when it does not parse.
 */
module JsonLd {
  import opened Options
  import opened Seqs
  import opened Text

  /** The value of one member of an event object, as `dict.get` returns it. */
  datatype Field = Absent | Str(text: string) | NonStr

  /** One element of the event list: a JSON object (only the members the scripts read)
      or any other JSON value, on which `.get` raises `AttributeError`. */
  datatype Value = Obj(typ: Field, startDate: Field, name: Field, url: Field) | NonObj

  /** A parsed script body: a top-level JSON array, or any other top-level value. */
  datatype Document = Many(items: seq<Value>) | Single(item: Value)

  /** A `<script>` element: its `type` attribute and its parsed body. */
  datatype Script = Script(typ: string, body: Option<Document>)

  /** `if not isinstance(events, list): events = [events]`. */
  function Events(doc: Document): (r: seq<Value>)
    ensures |r| == if doc.Single? then 1 else |doc.items|
    ensures forall v | v in r :: if doc.Single? then v == doc.item else v in doc.items
  {
    match doc
    case Many(items) => items
    case Single(item) => [item]
  }

  /** `"application/ld+json" in script.get_attribute("type")`. */
  predicate IsLdJson(s: Script) {
    Contains(s.typ, "application/ld+json")
  }

  /** `event.get("@type") == "Event"`: only the string `Event` compares equal. */
  predicate IsEvent(v: Value) {
    v.Obj? && v.typ == Str("Event")
  }

  predicate IsT(c: char) { c == 'T' }

  /** `s.split("T")[0].replace("-", "/")`: the text before the first `T`, dashes turned to slashes. */
  function DatePart(s: string): (r: string)
    ensures |r| <= |s|
    ensures forall i | 0 <= i < |r| :: r[i] != 'T' && r[i] != '-'
    ensures forall i | 0 <= i < |r| :: r[i] == if s[i] == '-' then '/' else s[i]
  {
    ReplaceChar(s[..Find(s, IsT)], '-', '/')
  }

  /** The date part stops at the first `T`: what follows it is dropped. */
  lemma DatePartOf(pre: string, post: string)
    requires forall i | 0 <= i < |pre| :: pre[i] != 'T'
    ensures DatePart(pre + "T" + post) == ReplaceChar(pre, '-', '/')
  {
    FindAfter(pre, 'T', post, IsT);
  }

  /** A start date without a `T` is kept whole. */
  lemma DatePartNoT(s: string)
    requires forall i | 0 <= i < |s| :: s[i] != 'T'
    ensures DatePart(s) == ReplaceChar(s, '-', '/')
  {
    assert Find(s, IsT) == |s|;
    assert s[..|s|] == s;
  }

  /** `event.get("startDate", "")` followed by the date-part expression; `None` when
      the member is present but not a string, so `.split` raises. */
  function StartDateText(f: Field): (r: Option<string>)
    ensures r.None? <==> f.NonStr?
    ensures f.Absent? ==> r == Some("")
    ensures f.Str? ==> r == Some(DatePart(f.text))
  {
    match f
    case Absent => Some("")
    case Str(s) => Some(DatePart(s))
    case NonStr => None
  }

  /** `"2024" in date_text or "2025" in date_text`. */
  predicate InTargetYears(t: string) {
    Contains(t, "2024") || Contains(t, "2025")
  }

  /** What the event filter makes of one list element: skipped, an exception, or an
      event to download together with its date text. */
  datatype Selection = Skip | Raise | Target(dateText: string)

  /** The filter shared by both scripts: `.get` on a non-object raises; a non-`Event`
      is skipped; a non-string start date raises; a date text without 2024 or 2025 is
      skipped. */
  function Select(v: Value): (r: Selection)
    ensures r.Raise? <==> v.NonObj? || (IsEvent(v) && v.startDate.NonStr?)
    ensures r.Target? <==> IsEvent(v) && v.startDate.Str? && InTargetYears(DatePart(v.startDate.text))
    ensures r.Target? ==> r.dateText == DatePart(v.startDate.text) && InTargetYears(r.dateText)
  {
    if v.NonObj? then Raise
    else if !IsEvent(v) then Skip
    else
      match StartDateText(v.startDate)
      case None => Raise
      case Some(t) => if InTargetYears(t) then Target(t) else Skip
  }

  /** No year can be found in an empty text. */
  lemma EmptyNotTarget()
    ensures !InTargetYears("")
  {
    assert !Contains("", "2024");
    assert !Contains("", "2025");
  }

  /** An event without `startDate` gets the empty date text and is always skipped. */
  lemma MissingStartDateSkipped(v: Value)
    requires IsEvent(v) && v.startDate.Absent?
    ensures Select(v) == Skip
  {
    EmptyNotTarget();
  }

}

=== FILE: llama.dfy ===
/**
 The San Ramon calendar scraper that pairs each meeting date with the next link: every
 `<span class="MeetingDate">` of the calendar page is matched with the first `<a>` that
 follows it in document order, the link's `href` is fetched as it stands, and the
 packet is saved as the stripped date text plus `.pdf`. The page is a flat sequence
 of tokens in document order; the network and the file system are parameters.
 */
module Llama {
  import opened Options
  import opened Seqs
  import opened Text

  /** One element of the page in document order: a meeting-date span with its text, an
      anchor with its `href` (`None` when absent), or anything else. */
  datatype Token = DateSpan(text: string) | Link(href: Option<string>) | Other

  predicate IsLink(t: Token) { t.Link? }

  predicate IsDateSpan(t: Token) { t.DateSpan? }

  /** `date.find_next('a')` for the span at `i`: the position of the first anchor after it. */
  function NextLink(tokens: seq<Token>, i: nat): (r: Option<nat>)
    requires i < |tokens|
    ensures r.Some? ==> i < r.value < |tokens| && tokens[r.value].Link?
    ensures r.Some? ==> forall j | i < j < r.value :: !tokens[j].Link?
    ensures r.None? ==> forall j | i < j < |tokens| :: !tokens[j].Link?
  {
    var rest := tokens[i + 1..];
    var k := Find(rest, IsLink);
    assert forall j | i < j < |tokens| :: tokens[j] == rest[j - i - 1];
    if k == |rest| then None else Some(i + 1 + k)
  }

  /** The anchor found is the only one that can be: no other position satisfies the
      same description. */
  lemma NextLinkUnique(tokens: seq<Token>, i: nat, j: nat)
    requires i < j < |tokens| && tokens[j].Link?
    requires forall m | i < m < j :: !tokens[m].Link?
    ensures NextLink(tokens, i) == Some(j)
  {
  }

  /** `f'{meeting_date}.pdf'` with `meeting_date = date.text.strip()`. */
  function PacketFilename(dateText: string): (r: string)
    ensures EndsWith(r, ".pdf")
    ensures r[..|r| - 4] == Strip(dateText)
  {
    Strip(dateText) + ".pdf"
  }

  /** Dates that strip to different texts get different file names. */
  lemma PacketFilenameInjective(a: string, b: string)
    ensures PacketFilename(a) == PacketFilename(b) <==> Strip(a) == Strip(b)
  {
    if PacketFilename(a) == PacketFilename(b) {
      var n := |PacketFilename(a)| - 4;
      assert Strip(a) == PacketFilename(a)[..n];
      assert Strip(b) == PacketFilename(b)[..n];
    }
  }

  /** What the network and the disk answer: whether a GET of a URL passes
      `raise_for_status` (a relative `href` has no scheme and fails like any other
      request error), and whether `open` can create a file of that name in the folder. */
  datatype World = World(fetch: string -> bool, writable: string -> bool)

  /** One meeting date: the file it writes, if any, and whether it crashed the run. A
      span without a following anchor is skipped; an anchor without `href` raises an
      uncaught `KeyError`; a failed request and a failed write are reported and skipped. */
  function DateStep(world: World, tokens: seq<Token>, i: nat): (r: (Option<(string, string)>, bool))
    requires i < |tokens| && tokens[i].DateSpan?
    ensures r.1 ==> r.0.None?
    ensures NextLink(tokens, i).None? ==> r == (None, false)
    ensures r.1 <==> NextLink(tokens, i).Some? && tokens[NextLink(tokens, i).value].href.None?
    ensures r.0.Some? ==> r.0.value.0 == PacketFilename(tokens[i].text)
  {
    match NextLink(tokens, i)
    case None => (None, false)
    case Some(j) =>
      match tokens[j].href
      case None => (None, true)
      case Some(url) =>
        var name := PacketFilename(tokens[i].text);
        if !world.fetch(url) || !world.writable(name) then (None, false)
        else (Some((name, url)), false)
  }

  /** The loop over the meeting dates from position `i` on: the files written in order
      as (name, URL fetched) pairs, and whether a `KeyError` ended it. */
  function Dates(world: World, tokens: seq<Token>, i: nat): (r: (seq<(string, string)>, bool))
    requires i <= |tokens|
    ensures |r.0| <= |tokens| - i
    decreases |tokens| - i
  {
    if i == |tokens| then ([], false)
    else if !tokens[i].DateSpan? then Dates(world, tokens, i + 1)
    else
      var (here, crash) := DateStep(world, tokens, i);
      if crash then ([], true)
      else
        var (rest, crashLater) := Dates(world, tokens, i + 1);
        var written := if here.Some? then [here.value] else [];
        (written + rest, crashLater)
  }

  /** `w` is what the meeting date at `k` writes: its file name, and the `href` of the
      first anchor after it, fetched and written without error. */
  predicate WrittenFor(world: World, tokens: seq<Token>, k: nat, w: (string, string))
    requires k < |tokens|
  {
    && tokens[k].DateSpan? && w.0 == PacketFilename(tokens[k].text)
    && NextLink(tokens, k).Some? && tokens[NextLink(tokens, k).value].href == Some(w.1)
    && world.fetch(w.1) && world.writable(w.0)
  }

  /** A date writes exactly what `WrittenFor` describes: the write, when there is one,
      fits the description, and whatever fits it is written. */
  lemma DateStepWritten(world: World, tokens: seq<Token>, i: nat)
    requires i < |tokens| && tokens[i].DateSpan?
    ensures var r := DateStep(world, tokens, i).0;
      && (r.Some? ==> WrittenFor(world, tokens, i, r.value))
      && (forall w | WrittenFor(world, tokens, i, w) :: r == Some(w))
  {
  }

  /** The loop at a meeting date: that date's file, if any, then the rest of the loop. */
  lemma DatesAtSpan(world: World, tokens: seq<Token>, i: nat)
    requires i < |tokens| && tokens[i].DateSpan?
    ensures var (here, crash) := DateStep(world, tokens, i);
      Dates(world, tokens, i).0 ==
        if crash then [] else (if here.Some? then [here.value] else []) + Dates(world, tokens, i + 1).0
  {
  }

  /** A file the loop from `i` writes that position `i` does not write is written by
      the loop from `i + 1`. */
  lemma DatesLater(world: World, tokens: seq<Token>, i: nat, w: (string, string))
    requires i < |tokens|
    requires w in Dates(world, tokens, i).0
    requires !(tokens[i].DateSpan? && DateStep(world, tokens, i).0 == Some(w))
    ensures w in Dates(world, tokens, i + 1).0
  {
    if tokens[i].DateSpan? {
      DatesAtSpan(world, tokens, i);
    }
  }

  /** Every file written comes from one meeting date: it is named after the date and
      holds the first link after it. */
  lemma {:induction false} DatesWritten(world: World, tokens: seq<Token>, i: nat, w: (string, string))
    requires i <= |tokens|
    requires w in Dates(world, tokens, i).0
    ensures exists k | i <= k < |tokens| :: WrittenFor(world, tokens, k, w)
    decreases |tokens| - i
  {
    if i < |tokens| {
      if tokens[i].DateSpan? && DateStep(world, tokens, i).0 == Some(w) {
        DateStepWritten(world, tokens, i);
      } else {
        DatesLater(world, tokens, i, w);
        DatesWritten(world, tokens, i + 1, w);
      }
    }
  }

  /** Unless a `KeyError` ended the loop, every meeting date whose link could be fetched
      and whose file could be written has its file among those written. */
  lemma {:induction false} DatesComplete(world: World, tokens: seq<Token>, i: nat, k: nat)
    requires i <= k < |tokens| && tokens[k].DateSpan?
    requires !Dates(world, tokens, i).1
    requires DateStep(world, tokens, k).0.Some?
    ensures DateStep(world, tokens, k).0.value in Dates(world, tokens, i).0
    decreases |tokens| - i
  {
    if tokens[i].DateSpan? {
      var (here, crash) := DateStep(world, tokens, i);
      var (rest, _) := Dates(world, tokens, i + 1);
      var written := if here.Some? then [here.value] else [];
      assert Dates(world, tokens, i).0 == written + rest;
      if k > i {
        DatesComplete(world, tokens, i + 1, k);
      }
    } else {
      DatesComplete(world, tokens, i + 1, k);
    }
  }

  /** A date whose packet request fails writes nothing, and the loop goes on with the
      next date exactly as if that date were not there. */
  lemma FailedFetchSkipped(world: World, tokens: seq<Token>, i: nat)
    requires i < |tokens| && tokens[i].DateSpan?
    requires NextLink(tokens, i).Some?
    requires var h := tokens[NextLink(tokens, i).value].href; h.Some? && !world.fetch(h.value)
    ensures Dates(world, tokens, i) == Dates(world, tokens, i + 1)
  {
    var (rest, crash) := Dates(world, tokens, i + 1);
    assert [] + rest == rest;
  }

  /** How the script ends: normally, through `exit(1)`, or with an uncaught exception. */
  datatype Status = Finished | Exited | Crashed

  /** The end of a run: how it ended, whether it reached the folder set-up (so that
      `agenda_packets` exists afterwards), and the files written in order. */
  datatype Outcome = Outcome(status: Status, madeDir: bool, written: seq<(string, string)>)

  /** The whole script. `page` is the calendar page as tokens, or `None` when its
      request fails. */
  function Run(world: World, page: Option<seq<Token>>): (r: Outcome)
    ensures page.None? ==> r == Outcome(Exited, false, [])
    ensures page.Some? && Find(page.value, IsDateSpan) == |page.value| ==> r == Outcome(Exited, false, [])
    ensures r.status == Exited <==> !r.madeDir
    ensures forall k | 0 <= k < |r.written| :: EndsWith(r.written[k].0, ".pdf")
  {
    match page
    case None => Outcome(Exited, false, [])
    case Some(tokens) =>
      if Find(tokens, IsDateSpan) == |tokens| then Outcome(Exited, false, [])
      else
        var (written, crash) := Dates(world, tokens, 0);
        forall k | 0 <= k < |written| ensures EndsWith(written[k].0, ".pdf") {
          DatesWritten(world, tokens, 0, written[k]);
        }
        Outcome(if crash then Crashed else Finished, true, written)
  }

  /** Without any meeting date the script stops before the folder set-up or a
      single request for a packet is made. */
  lemma NoDatesNothing(world: World, tokens: seq<Token>)
    requires forall i | 0 <= i < |tokens| :: !tokens[i].DateSpan?
    ensures Run(world, Some(tokens)) == Outcome(Exited, false, [])
  {
  }

}

=== FILE: options.dfy ===
/** Optional values: Python's `None`, a lookup that found nothing, a parse that failed. */
module Options {

  datatype Option<+T> = None | Some(value: T)

}

=== FILE: pleasant_hill.dfy ===
/**
 The Pleasant Hill calendar scraper: every anchor of one calendar page whose `href`
 ends in `.pdf` (in any case) is resolved against the page URL, fetched, and saved
 under the URL's last path segment. Nothing catches an exception, so the first failed
 request or unwritable name ends the run. The HTTP client, `urljoin` and the file
 system are parameters: `join` resolves a link, `fetch` says whether a request
 succeeds, and the output folder is a map from file name to the URL saved in it.
 */
module PleasantHill {
  import opened Options
  import opened Seqs
  import opened Text

  const PageUrl: string := "https://pleasanthillca.iqm2.com/Citizens/calendar.aspx?From=1/1/2023&To=12/31/2025"

  /** `href.lower().endswith('.pdf')`. */
  predicate IsPdfLink(href: string) {
    EndsWith(Lower(href), ".pdf")
  }

  /** Only the last four characters decide, compared without case: `"X.PDF"` is a PDF
      link and `"x.pdf?y=1"` is not. */
  lemma PdfLinkSuffix(href: string)
    ensures IsPdfLink(href) <==> |href| >= 4 && Lower(href[|href| - 4..]) == ".pdf"
  {
    if |href| >= 4 {
      assert Lower(href)[|href| - 4..] == Lower(href[|href| - 4..]);
    }
  }

  lemma UpperCaseSelected(href: string)
    requires href == "X.PDF"
    ensures IsPdfLink(href)
  {
    assert Lower(href) == "x.pdf";
  }

  lemma QuerySuffixNotSelected(href: string)
    requires href == "x.pdf?y=1"
    ensures !IsPdfLink(href)
  {
    assert Lower(href)[|href| - 4..] == "?y=1";
  }

  // ----- `os.path.basename` -----

  /** The length of the text up to and including the last `/`, `0` without one. */
  function DirLength(s: string): (k: nat)
    ensures k <= |s|
    ensures k > 0 ==> s[k - 1] == '/'
    ensures forall i | k <= i < |s| :: s[i] != '/'
    decreases |s|
  {
    if s == [] then 0
    else if s[|s| - 1] == '/' then |s|
    else DirLength(s[..|s| - 1])
  }

  /** `os.path.basename` on a POSIX system: what follows the last `/`. */
  function Basename(s: string): (r: string)
    ensures forall i | 0 <= i < |r| :: r[i] != '/'
  {
    s[DirLength(s)..]
  }

  /** The basename is a suffix of the URL, and what precedes it is empty or ends in `/`. */
  lemma BasenameSplit(s: string)
    ensures var r := Basename(s);
      && |r| <= |s| && s == s[..|s| - |r|] + r
      && (|r| < |s| ==> s[|s| - |r| - 1] == '/')
  {
  }

  /** The segment after a `/` is the basename, whatever precedes it. */
  lemma {:induction false} BasenameOf(dir: string, name: string)
    requires forall i | 0 <= i < |name| :: name[i] != '/'
    ensures Basename(dir + "/" + name) == name
    decreases |name|
  {
    var s := dir + "/" + name;
    if name == [] {
      assert s[|s| - 1] == '/';
    } else {
      var init := name[..|name| - 1];
      assert s[..|s| - 1] == dir + "/" + init;
      assert s[|s| - 1] == name[|name| - 1];
      BasenameOf(dir, init);
      assert DirLength(s) == DirLength(dir + "/" + init);
    }
  }

  // ----- The download loop -----

  /** What the page and the network answer: `urljoin`, and whether a GET of a URL
      passes `raise_for_status`. */
  datatype Web = Web(join: (string, string) -> string, fetch: string -> bool)

  /** The URLs of the selected links in document order: anchors without `href` are not
      returned by `find_all('a', href=True)`, and only PDF links are kept. */
  function PdfUrls(web: Web, hrefs: seq<Option<string>>): (r: seq<string>)
    ensures |r| <= |hrefs|
    decreases |hrefs|
  {
    if hrefs == [] then []
    else
      var rest := PdfUrls(web, hrefs[1..]);
      match hrefs[0]
      case Some(h) => if IsPdfLink(h) then [web.join(PageUrl, h)] + rest else rest
      case None => rest
  }

  /** A link is downloaded exactly when it has an `href` ending in `.pdf`. */
  predicate Selected(href: Option<string>) {
    href.Some? && IsPdfLink(href.value)
  }

  lemma {:induction false} PdfUrlsMembers(web: Web, hrefs: seq<Option<string>>, u: string)
    ensures u in PdfUrls(web, hrefs) <==>
      exists i | 0 <= i < |hrefs| :: Selected(hrefs[i]) && u == web.join(PageUrl, hrefs[i].value)
    decreases |hrefs|
  {
    if hrefs != [] {
      PdfUrlsMembers(web, hrefs[1..], u);
      if u in PdfUrls(web, hrefs) && !(Selected(hrefs[0]) && u == web.join(PageUrl, hrefs[0].value)) {
        var i :| 0 <= i < |hrefs[1..]| && Selected(hrefs[1..][i]) && u == web.join(PageUrl, hrefs[1..][i].value);
        assert hrefs[1..][i] == hrefs[i + 1];
      }
      if exists i | 0 <= i < |hrefs| :: Selected(hrefs[i]) && u == web.join(PageUrl, hrefs[i].value) {
        var i :| 0 <= i < |hrefs| && Selected(hrefs[i]) && u == web.join(PageUrl, hrefs[i].value);
        if i > 0 {
          assert hrefs[1..][i - 1] == hrefs[i];
        }
      }
    }
  }

  /** A single link contributes its resolved URL exactly when it is selected. */
  lemma PdfUrlsOne(web: Web, h: Option<string>)
    ensures PdfUrls(web, [h]) == if Selected(h) then [web.join(PageUrl, h.value)] else []
  {
    assert [h][1..] == [];
  }

  /** The URLs of consecutive runs of links are concatenated in document order, so
      together with `PdfUrlsOne` the result is the selected links, each resolved, in
      the order the page lists them. */
  lemma {:induction false} PdfUrlsAppend(web: Web, a: seq<Option<string>>, b: seq<Option<string>>)
    ensures PdfUrls(web, a + b) == PdfUrls(web, a) + PdfUrls(web, b)
    decreases |a|
  {
    if a == [] {
      assert a + b == b;
    } else {
      assert (a + b)[0] == a[0];
      assert (a + b)[1..] == a[1..] + b;
      PdfUrlsAppend(web, a[1..], b);
    }
  }

  /** A selected URL stops the run when its request fails, or when its basename is
      empty, so that `open` is asked to write the folder itself. */
  predicate Fails(web: Web, u: string) {
    !web.fetch(u) || Basename(u) == []
  }

  /** The folder after saving `urls` in order: each URL lands under its basename,
      replacing whatever was there. */
  function Save(dir: map<string, string>, urls: seq<string>): (r: map<string, string>)
    ensures dir.Keys <= r.Keys
    ensures urls != [] ==> Basename(urls[|urls| - 1]) in r && r[Basename(urls[|urls| - 1])] == urls[|urls| - 1]
    decreases |urls|
  {
    if urls == [] then dir
    else
      var u := urls[|urls| - 1];
      Save(dir, urls[..|urls| - 1])[Basename(u) := u]
  }

  /** The basenames of `urls`. */
  function Names(urls: seq<string>): set<string> {
    set i | 0 <= i < |urls| :: Basename(urls[i])
  }

  lemma NamesSnoc(urls: seq<string>)
    requires urls != []
    ensures Names(urls) == Names(urls[..|urls| - 1]) + {Basename(urls[|urls| - 1])}
  {
    var init := urls[..|urls| - 1];
    forall n | n in Names(urls) ensures n in Names(init) + {Basename(urls[|urls| - 1])} {
      var i :| 0 <= i < |urls| && n == Basename(urls[i]);
      if i < |init| { assert init[i] == urls[i]; }
    }
    forall n | n in Names(init) ensures n in Names(urls) {
      var i :| 0 <= i < |init| && n == Basename(init[i]);
      assert urls[i] == init[i];
    }
  }

  /** The file names in the folder after saving: the old ones and one per URL. */
  lemma {:induction false} SaveKeys(dir: map<string, string>, urls: seq<string>)
    ensures Save(dir, urls).Keys == dir.Keys + Names(urls)
    decreases |urls|
  {
    if urls != [] {
      SaveKeys(dir, urls[..|urls| - 1]);
      NamesSnoc(urls);
    }
  }

  /** The last link with a given basename wins: a URL that no later URL shares a
      basename with is what the folder holds under that name. */
  lemma {:induction false} LastWins(dir: map<string, string>, urls: seq<string>, i: nat)
    requires i < |urls|
    requires forall j | i < j < |urls| :: Basename(urls[j]) != Basename(urls[i])
    ensures var r := Save(dir, urls); Basename(urls[i]) in r && r[Basename(urls[i])] == urls[i]
    decreases |urls|
  {
    var init := urls[..|urls| - 1];
    if i < |urls| - 1 {
      assert init[i] == urls[i];
      forall j | i < j < |init| ensures Basename(init[j]) != Basename(init[i]) {
        assert init[j] == urls[j];
      }
      LastWins(dir, init, i);
    }
  }

  /** A file no saved URL is named after keeps its old content. */
  lemma {:induction false} SaveKeepsOthers(dir: map<string, string>, urls: seq<string>, n: string)
    requires n in dir
    requires forall j | 0 <= j < |urls| :: Basename(urls[j]) != n
    ensures n in Save(dir, urls) && Save(dir, urls)[n] == dir[n]
    decreases |urls|
  {
    if urls != [] {
      var init := urls[..|urls| - 1];
      forall j | 0 <= j < |init| ensures Basename(init[j]) != n {
        assert init[j] == urls[j];
      }
      SaveKeepsOthers(dir, init, n);
    }
  }

  /** The end of a run: the folder, the URLs saved in order, and whether an exception
      ended the run early. */
  datatype Outcome = Outcome(dir: map<string, string>, saved: seq<string>, aborted: bool)

  /** The whole script. `page` is the anchors' `href` attributes in document order, or
      `None` when the calendar request fails. */
  function Run(web: Web, page: Option<seq<Option<string>>>, dir: map<string, string>): (r: Outcome)
    ensures page.None? ==> r == Outcome(dir, [], true)
    ensures page.Some? ==> r.saved <= PdfUrls(web, page.value)
    ensures page.Some? ==> (r.aborted <==> |r.saved| < |PdfUrls(web, page.value)|)
    ensures page.Some? && r.aborted ==> Fails(web, PdfUrls(web, page.value)[|r.saved|])
    ensures forall i | 0 <= i < |r.saved| :: !Fails(web, r.saved[i])
    ensures r.dir == Save(dir, r.saved)
  {
    match page
    case None => Outcome(dir, [], true)
    case Some(hrefs) =>
      var urls := PdfUrls(web, hrefs);
      var k := Find(urls, u => Fails(web, u));
      assert forall i | 0 <= i < k :: urls[..k][i] == urls[i];
      Outcome(Save(dir, urls[..k]), urls[..k], k < |urls|)
  }

}

=== FILE: redlit.dfy ===
/**
 The San Ramon calendar scraper (`redlit_sanramon.py`): each row of the
 meeting table resolves to at most one agenda packet, and each packet is saved
 under a name built from its date and its cleaned meeting type.

 The page itself is abstracted: a row is the sequence of its `td` cells, each
 cell the text `get_text(strip=True)` returned and the `href` of each of its
 anchors in document order.
 */
module Redlit {
  import opened Options
  import opened Seqs
  import opened Text
  import opened Dates
  import opened Sanitize

  /** One `td`: its stripped text and its anchors' `href`s (`None` for an anchor without one). */
  datatype Cell = Cell(text: string, hrefs: seq<Option<string>>)

  type Row = seq<Cell>

  /** The `(meeting_date, meeting_type, href)` triple a row contributes. */
  datatype AgendaItem = AgendaItem(date: Date, meetingType: string, url: string)

  /** Why a row contributes nothing. */
  datatype SkipReason =
    | TooFewCells    // fewer than two `td`s
    | BadDateFormat  // the first cell does not start like `M/D/YYYY`
    | DateRejected   // `strptime` raised, and the row's `except` skipped it
    | NoPacketLink   // no anchor of the row marks an agenda packet

  datatype RowResult = Found(item: AgendaItem) | Skipped(reason: SkipReason)

  // ----- The date cell -----

  /** `t` cut at its first `/` into the text before and the text after;
      `None` when `t` has no `/`. */
  function SplitSlash(t: string): (r: Option<(string, string)>)
    ensures r.Some? ==> t == r.value.0 + "/" + r.value.1
    ensures r.Some? ==> forall i | 0 <= i < |r.value.0| :: r.value.0[i] != '/'
    ensures r.None? ==> forall i | 0 <= i < |t| :: t[i] != '/'
  {
    var i := Find(t, IsSlash);
    if i == |t| then None
    else
      assert t == t[..i] + "/" + t[i + 1..];
      Some((t[..i], t[i + 1..]))
  }

  /** Cutting at the first `/` recovers the parts of a string put together around one. */
  lemma SplitSlashOf(a: string, b: string)
    requires forall i | 0 <= i < |a| :: a[i] != '/'
    ensures SplitSlash(a + "/" + b) == Some((a, b))
  {
    assert a + "/" + b == a + ['/'] + b;
    FindAfter(a, '/', b, IsSlash);
  }

  /** `re.match(r'\d{1,2}/\d{1,2}/\d{4}', t)`: one or two digits, `/`, one or two
      digits, `/`, four digits, at the start of `t`. */
  function MatchesDatePrefix(t: string): (b: bool)
    ensures b ==> |t| >= 8 && IsDigit(t[0])
  {
    match SplitSlash(t)
    case None => false
    case Some((m, u)) =>
      && 1 <= |m| <= 2 && AllDigits(m)
      && match SplitSlash(u)
         case None => false
         case Some((d, v)) => 1 <= |d| <= 2 && AllDigits(d) && 4 <= |v| && AllDigits(v[..4])
  }

  /** `datetime.strptime(t, '%m/%d/%Y')`: all of `t` must be a month field, `/`,
      a day field, `/` and four digits, and name a date `datetime.date` accepts;
      anything else raises `ValueError`, here `None`. */
  function StrptimeMdy(t: string): (r: Option<Date>)
    ensures r.Some? ==> IsValid(r.value)
    ensures r.Some? ==>
      && |t| >= 8 && t[|t| - 5] == '/' && AllDigits(t[|t| - 4..])
      && r.value.year == DigitsValue(t[|t| - 4..])
  {
    match SplitSlash(t)
    case None => None
    case Some((m, u)) =>
      match SplitSlash(u)
      case None => None
      case Some((d, y)) =>
        if MonthField(m) && DayField(d) && |y| == 4 && AllDigits(y) then
          assert AllDigits(m);
          assert t[|t| - 5..] == "/" + y;
          assert t[|t| - 4..] == y;
          var date := Date(DigitsValue(y), DigitsValue(m), DayValue(d));
          if IsValid(date) then Some(date) else None
        else None
  }

  /** A date text cut at its two `/`. */
  lemma SplitDate(m: string, d: string, y: string)
    requires forall i | 0 <= i < |m| :: m[i] != '/'
    requires forall i | 0 <= i < |d| :: d[i] != '/'
    ensures SplitSlash(m + "/" + d + "/" + y) == Some((m, d + "/" + y))
    ensures SplitSlash(d + "/" + y) == Some((d, y))
  {
    assert m + "/" + d + "/" + y == m + "/" + (d + "/" + y);
    SplitSlashOf(m, d + "/" + y);
    SplitSlashOf(d, y);
  }

  /** `strptime` reads a month field, a day field and four year digits as the date they spell. */
  lemma StrptimeFields(m: string, d: string, y: string)
    requires MonthField(m) && DayField(d) && |y| == 4 && AllDigits(y)
    requires IsValid(Date(DigitsValue(y), DigitsValue(m), DayValue(d)))
    ensures StrptimeMdy(m + "/" + d + "/" + y) == Some(Date(DigitsValue(y), DigitsValue(m), DayValue(d)))
  {
    FieldsNoSlash(m, d);
    SplitDate(m, d, y);
  }

  lemma FieldsNoSlash(m: string, d: string)
    requires MonthField(m) && DayField(d)
    ensures forall i | 0 <= i < |m| :: m[i] != '/'
    ensures forall i | 0 <= i < |d| :: d[i] != '/'
  {
  }

  /** The prefix pattern accepts one or two digits, `/`, one or two digits, `/`, four digits. */
  lemma PrefixFields(m: string, d: string, y: string)
    requires 1 <= |m| <= 2 && AllDigits(m) && 1 <= |d| <= 2 && AllDigits(d)
    requires |y| >= 4 && AllDigits(y[..4])
    ensures MatchesDatePrefix(m + "/" + d + "/" + y)
  {
    SplitDate(m, d, y);
  }

  /** The calendar's own spelling of a date: month and day without padding. */
  function MdyText(d: Date): string
    requires IsValid(d)
  {
    NatText(d.month) + "/" + NatText(d.day) + "/" + PadText(d.year, 4)
  }

  /** Every valid date, spelled `M/D/YYYY`, passes the prefix pattern and
      `strptime` gives it back unchanged. */
  lemma MdyRoundTrip(d: Date)
    requires IsValid(d)
    ensures MatchesDatePrefix(MdyText(d))
    ensures StrptimeMdy(MdyText(d)) == Some(d)
  {
    var m, dd, y := NatText(d.month), NatText(d.day), PadText(d.year, 4);
    MonthTextField(d.month);
    DayTextField(d.day);
    assert |y| == 4 && y[..4] == y;
    PrefixFields(m, dd, y);
    StrptimeFields(m, dd, y);
  }

  /** A month field `strptime` does not accept makes it raise, whatever follows. */
  lemma StrptimeBadMonth(m: string, d: string, y: string)
    requires forall i | 0 <= i < |m| :: m[i] != '/'
    requires forall i | 0 <= i < |d| :: d[i] != '/'
    requires !MonthField(m)
    ensures StrptimeMdy(m + "/" + d + "/" + y) == None
  {
    SplitDate(m, d, y);
  }

  /** `13/45/2024` has the shape the prefix pattern wants, but month 13 is
      refused by `strptime`, so a row dated so is skipped. */
  lemma RejectedDateExample(m: string, d: string, y: string, row: Row)
    requires m == "13" && d == "45" && y == "2024"
    requires |row| >= 2 && row[0].text == m + "/" + d + "/" + y
    ensures MatchesDatePrefix(row[0].text) && StrptimeMdy(row[0].text) == None
    ensures ResolveRow(row) == Skipped(DateRejected)
  {
    assert AllDigits(m) && AllDigits(d) && AllDigits(y[..4]);
    PrefixFields(m, d, y);
    StrptimeBadMonth(m, d, y);
  }

  /** A day field with a character other than a digit fails the prefix pattern. */
  lemma PrefixBadDay(m: string, d: string, y: string)
    requires forall i | 0 <= i < |m| :: m[i] != '/'
    requires forall i | 0 <= i < |d| :: d[i] != '/'
    requires !AllDigits(d)
    ensures !MatchesDatePrefix(m + "/" + d + "/" + y)
  {
    SplitDate(m, d, y);
  }

  /** `1/ 5/2024` is a text `strptime` reads as January 5, but the prefix
      pattern wants a digit where the space is, so such a row is skipped first. */
  lemma SpacedDayExample(m: string, d: string, y: string)
    requires m == "1" && d == " 5" && y == "2024"
    ensures !MatchesDatePrefix(m + "/" + d + "/" + y)
    ensures StrptimeMdy(m + "/" + d + "/" + y) == Some(Date(2024, 1, 5))
  {
    FieldsNoSlash(m, d);
    assert !IsDigit(d[0]);
    PrefixBadDay(m, d, y);
    SpacedDayValues(m, d, y);
    StrptimeFields(m, d, y);
  }

  lemma SpacedDayValues(m: string, d: string, y: string)
    requires m == "1" && d == " 5" && y == "2024"
    ensures AllDigits(m) && AllDigits(y) && DayField(d)
    ensures DigitsValue(y) == 2024 && DigitsValue(m) == 1 && DayValue(d) == 5
  {
    var e: string := [];
    assert m == e + [m[0]];
    DigitsSnoc(e, m[0]);
    YearDigits(y);
  }

  lemma YearDigits(y: string)
    requires y == "2024"
    ensures AllDigits(y) && DigitsValue(y) == 2024
  {
    var e: string := [];
    assert y == y[..3] + [y[3]] && y[..3] == y[..2] + [y[2]];
    assert y[..2] == y[..1] + [y[1]] && y[..1] == e + [y[0]];
    DigitsSnoc(e, y[0]);
    DigitsSnoc(y[..1], y[1]);
    DigitsSnoc(y[..2], y[2]);
    DigitsSnoc(y[..3], y[3]);
  }

  // ----- The packet link -----

  /** The marker test of the link scan: the link is an agenda packet. */
  predicate IsPacketHref(h: string) {
    Contains(h, "FileOpen.aspx") && Contains(h, "Type=1")
  }

  /** `link.get('href', '')`. */
  function HrefText(h: Option<string>): string {
    if h.Some? then h.value else ""
  }

  predicate IsPacketLink(h: Option<string>) {
    IsPacketHref(HrefText(h))
  }

  /** The `Citizens/` base URL that relative packet links are resolved against. */
  const CitizensBase: string := "https://sanramonca.iqm2.com/Citizens/"

  /** The URL fix-up after a packet link is found: an href that does not start with
      `http` is appended to the `Citizens/` base URL after its leading `/` characters
      are dropped. */
  function AbsoluteUrl(h: string): (r: string)
    ensures "http" <= r
    ensures "http" <= h ==> r == h
    ensures !("http" <= h) ==>
      && CitizensBase <= r
      && var rest := r[|CitizensBase|..];
         && |rest| <= |h| && rest == h[|h| - |rest|..]
         && (rest == [] || rest[0] != '/')
         && forall i | 0 <= i < |h| - |rest| :: h[i] == '/'
  {
    if "http" <= h then h
    else
      assert "http" <= CitizensBase;
      var r := CitizensBase + TrimStart(h, IsSlash);
      assert r[|CitizensBase|..] == TrimStart(h, IsSlash);
      r
  }

  /** Every href of a row: cell by cell, and within a cell in link order. */
  function AllHrefs(row: Row): seq<Option<string>> {
    if row == [] then [] else row[0].hrefs + AllHrefs(row[1..])
  }

  lemma {:induction false} AllHrefsAppend(a: Row, b: Row)
    ensures AllHrefs(a + b) == AllHrefs(a) + AllHrefs(b)
  {
    if a == [] {
      assert a + b == b;
    } else {
      assert (a + b)[1..] == a[1..] + b;
      AllHrefsAppend(a[1..], b);
    }
  }

  /** The href of the first packet link of the row, in cell order and then link order. */
  function FirstPacket(row: Row): (r: Option<string>)
    ensures r.Some? ==> IsPacketHref(r.value)
  {
    var hs := AllHrefs(row);
    var k := Find(hs, IsPacketLink);
    if k < |hs| then Some(HrefText(hs[k])) else None
  }

  /** The link scan: the loop over cells and, inside each, over its anchors,
      leaving both loops at the first packet link. */
  method ScanForPacket(row: Row) returns (found: Option<string>)
    ensures found == FirstPacket(row)
  {
    ghost var seen: seq<Option<string>> := [];
    var i := 0;
    while i < |row|
      invariant 0 <= i <= |row|
      invariant AllHrefs(row) == seen + AllHrefs(row[i..])
      invariant Find(seen, IsPacketLink) == |seen|
    {
      var links := row[i].hrefs;
      var j := 0;
      while j < |links|
        invariant 0 <= j <= |links|
        invariant Find(seen + links[..j], IsPacketLink) == |seen| + j
      {
        var href := HrefText(links[j]);
        if IsPacketHref(href) {
          ScanHit(row, i, j, seen);
          return Some(href);
        }
        FindMissAt(seen, links, j, IsPacketLink);
        j := j + 1;
      }
      ScanNextCell(row, i, seen);
      CellScanned(seen, links);
      seen := seen + links;
      i := i + 1;
    }
    ScanDone(row, seen);
    return None;
  }

  lemma CellHrefs(row: Row, i: nat)
    requires i < |row|
    ensures AllHrefs(row[i..]) == row[i].hrefs + AllHrefs(row[i + 1..])
  {
    assert row[i..][1..] == row[i + 1..];
  }

  /** The scan reaches a packet link: it is the row's first. */
  lemma ScanHit(row: Row, i: nat, j: nat, seen: seq<Option<string>>)
    requires i < |row| && j < |row[i].hrefs|
    requires AllHrefs(row) == seen + AllHrefs(row[i..])
    requires Find(seen + row[i].hrefs[..j], IsPacketLink) == |seen| + j
    requires IsPacketLink(row[i].hrefs[j])
    ensures FirstPacket(row) == Some(HrefText(row[i].hrefs[j]))
  {
    var links := row[i].hrefs;
    var post := links[j..] + AllHrefs(row[i + 1..]);
    HrefsAt(row, i, j, seen);
    assert post[0] == links[j] by {
      assert links[j..][0] == links[j];
    }
    FirstPacketAt(row, seen + links[..j], post);
  }

  lemma HrefsAt(row: Row, i: nat, j: nat, seen: seq<Option<string>>)
    requires i < |row| && j < |row[i].hrefs|
    requires AllHrefs(row) == seen + AllHrefs(row[i..])
    ensures AllHrefs(row) == (seen + row[i].hrefs[..j]) + (row[i].hrefs[j..] + AllHrefs(row[i + 1..]))
  {
    var links := row[i].hrefs;
    CellHrefs(row, i);
    assert links == links[..j] + links[j..];
  }

  /** A packet link after a stretch of hrefs without one is the row's first. */
  lemma FirstPacketAt(row: Row, pre: seq<Option<string>>, post: seq<Option<string>>)
    requires AllHrefs(row) == pre + post
    requires Find(pre, IsPacketLink) == |pre|
    requires post != [] && IsPacketLink(post[0])
    ensures FirstPacket(row) == Some(HrefText(post[0]))
  {
    FindHit(pre, post, IsPacketLink);
  }

  /** The scan moves past a cell: the hrefs still to read are those of the later cells. */
  lemma ScanNextCell(row: Row, i: nat, seen: seq<Option<string>>)
    requires i < |row|
    requires AllHrefs(row) == seen + AllHrefs(row[i..])
    ensures AllHrefs(row) == (seen + row[i].hrefs) + AllHrefs(row[i + 1..])
  {
    var links := row[i].hrefs;
    var rest := AllHrefs(row[i + 1..]);
    CellHrefs(row, i);
    assert seen + (links + rest) == (seen + links) + rest;
  }

  /** A cell whose every anchor was read without a packet link extends the stretch
      without one. */
  lemma CellScanned(seen: seq<Option<string>>, links: seq<Option<string>>)
    requires Find(seen + links[..|links|], IsPacketLink) == |seen| + |links|
    ensures Find(seen + links, IsPacketLink) == |seen + links|
  {
    assert links[..|links|] == links;
  }

  /** The scan finishes the row without a packet link. */
  lemma ScanDone(row: Row, seen: seq<Option<string>>)
    requires AllHrefs(row) == seen + AllHrefs(row[|row|..])
    requires Find(seen, IsPacketLink) == |seen|
    ensures FirstPacket(row) == None
  {
    assert row[|row|..] == [];
    assert AllHrefs(row) == seen;
  }

  // ----- One row -----

  /** The meeting type recorded for a row whose second cell is empty. */
  const UnknownMeeting: string := "Unknown Meeting"

  /** `meeting_type`: the second cell's text, or the default when it is empty. */
  function MeetingType(text: string): (r: string)
    ensures r != []
    ensures text != [] ==> r == text
    ensures text == [] ==> r == UnknownMeeting
  {
    if text == [] then UnknownMeeting else text
  }

  /** The body of the per-row `try`, with the row `except` turning a
      `strptime` failure into a skip. */
  function ResolveRow(row: Row): (r: RowResult)
    ensures r.Found? <==>
      && |row| >= 2
      && MatchesDatePrefix(row[0].text)
      && StrptimeMdy(row[0].text).Some?
      && FirstPacket(row).Some?
    ensures r.Found? ==>
      && IsValid(r.item.date)
      && StrptimeMdy(row[0].text) == Some(r.item.date)
      && r.item.meetingType != []
      && (row[1].text != [] ==> r.item.meetingType == row[1].text)
      && (row[1].text == [] ==> r.item.meetingType == UnknownMeeting)
      && "http" <= r.item.url
      && r.item.url == AbsoluteUrl(FirstPacket(row).value)
    ensures r == Skipped(TooFewCells) <==> |row| < 2
  {
    if |row| < 2 then Skipped(TooFewCells)
    else if !MatchesDatePrefix(row[0].text) then Skipped(BadDateFormat)
    else match StrptimeMdy(row[0].text)
      case None => Skipped(DateRejected)
      case Some(date) =>
        match FirstPacket(row)
        case None => Skipped(NoPacketLink)
        case Some(href) => Found(AgendaItem(date, MeetingType(row[1].text), AbsoluteUrl(href)))
  }

  /** What one row adds to the list: its item, or nothing. */
  function RowItems(row: Row): (items: seq<AgendaItem>)
    ensures |items| <= 1
    ensures forall k | 0 <= k < |items| :: IsValid(items[k].date) && "http" <= items[k].url
  {
    var r := ResolveRow(row);
    if r.Found? then [r.item] else []
  }

  /** The loop over the rows of one calendar page: their items in row order. */
  function PageItems(rows: seq<Row>): (items: seq<AgendaItem>)
    ensures |items| <= |rows|
    ensures forall k | 0 <= k < |items| :: IsValid(items[k].date) && "http" <= items[k].url
  {
    if rows == [] then [] else RowItems(rows[0]) + PageItems(rows[1..])
  }

  lemma {:induction false} PageItemsAppend(a: seq<Row>, b: seq<Row>)
    ensures PageItems(a + b) == PageItems(a) + PageItems(b)
  {
    if a == [] {
      assert a + b == b;
    } else {
      assert (a + b)[0] == a[0];
      assert (a + b)[1..] == a[1..] + b;
      PageItemsAppend(a[1..], b);
    }
  }

  // ----- Both years -----

  /** `year_urls`: the two calendar pages, iterated in insertion order, 2024 first. */
  const YearUrls: seq<string> := [
    "https://sanramonca.iqm2.com/Citizens/Calendar.aspx?View=List&From=1/1/2024&To=12/31/2024",
    "https://sanramonca.iqm2.com/Citizens/Calendar.aspx?View=List&From=1/1/2025&To=12/31/2025"
  ]

  /** The items of one page, or nothing when loading it raised. */
  function LoadedItems(page: Option<seq<Row>>): seq<AgendaItem> {
    if page.Some? then PageItems(page.value) else []
  }

  /** The body of the per-year `try`: the items of every page in turn; a page whose
      loading raised (`None`) contributes nothing and the next page is still read. */
  function AgendaItems(pages: seq<Option<seq<Row>>>): (items: seq<AgendaItem>)
    ensures forall k | 0 <= k < |items| :: IsValid(items[k].date) && "http" <= items[k].url
  {
    if pages == [] then [] else LoadedItems(pages[0]) + AgendaItems(pages[1..])
  }

  /** The loop over `year_urls`: `load` stands for the browser opening one calendar
      URL and returning its rows, `None` when that raises. */
  function Scrape(load: string -> Option<seq<Row>>): (items: seq<AgendaItem>)
    ensures forall k | 0 <= k < |items| :: IsValid(items[k].date) && "http" <= items[k].url
    ensures load(YearUrls[0]).None? && load(YearUrls[1]).None? ==> items == []
  {
    AgendaItemsTwo(load(YearUrls[0]), load(YearUrls[1]));
    AgendaItems([load(YearUrls[0]), load(YearUrls[1])])
  }

  /** The 2024 page's items come first and the 2025 page's follow, each page loaded
      on its own: a failing year loses only its own items. */
  lemma ScrapeByYear(load: string -> Option<seq<Row>>)
    ensures Scrape(load) == LoadedItems(load(YearUrls[0])) + LoadedItems(load(YearUrls[1]))
  {
    AgendaItemsTwo(load(YearUrls[0]), load(YearUrls[1]));
  }

  lemma AgendaItemsTwo(p: Option<seq<Row>>, q: Option<seq<Row>>)
    ensures AgendaItems([p, q]) == LoadedItems(p) + LoadedItems(q)
  {
    var pages := [p, q];
    assert pages[1..] == [q];
    assert [q][1..] == [];
    assert AgendaItems([q]) == LoadedItems(q) + AgendaItems([]);
    assert AgendaItems(pages) == LoadedItems(p) + AgendaItems([q]);
  }

  /** A page that fails to load loses only its own items. */
  lemma {:induction false} AgendaItemsFailedPage(a: seq<Option<seq<Row>>>, b: seq<Option<seq<Row>>>)
    ensures AgendaItems(a + [None] + b) == AgendaItems(a) + AgendaItems(b)
  {
    if a == [] {
      assert a + [None] + b == [None] + b;
      assert ([None] + b)[1..] == b;
    } else {
      assert (a + [None] + b)[0] == a[0];
      assert (a + [None] + b)[1..] == a[1..] + [None] + b;
      AgendaItemsFailedPage(a[1..], b);
    }
  }

  // ----- File names -----

  /** The `filename` of the download loop: `<YYYY-MM-DD>_<clean_filename(meeting_type)>.pdf`. */
  function PacketFilename(item: AgendaItem): string
    requires IsValid(item.date)
  {
    IsoDate(item.date) + "_" + CleanFilename(item.meetingType) + ".pdf"
  }

  /** The three parts of a packet file name sit at fixed places. */
  lemma PacketFilenameParts(item: AgendaItem)
    requires IsValid(item.date)
    ensures var f, clean := PacketFilename(item), CleanFilename(item.meetingType);
      && |f| == 15 + |clean|
      && f[..10] == IsoDate(item.date) && f[10] == '_'
      && f[11..|f| - 4] == clean && f[|f| - 4..] == ".pdf"
  {
    IsoDateRoundTrip(item.date);
  }

  /** An ISO date has no character `clean_filename` would delete and no whitespace. */
  lemma IsoDateSafe(d: Date)
    requires IsValid(d)
    ensures NoIllegal(IsoDate(d)) && NoSpace(IsoDate(d))
  {
    var iso := IsoDate(d);
    IsoDateRoundTrip(d);
    forall i | 0 <= i < |iso| ensures !IsIllegal(iso[i]) && !IsSpace(iso[i]) {
      DigitOrHyphenSafe(iso[i]);
    }
  }

  lemma DigitOrHyphenSafe(c: char)
    requires IsDigit(c) || c == '-'
    ensures !IsIllegal(c) && !IsSpace(c)
  {
  }

  lemma SeparatorsSafe()
    ensures NoIllegal("_") && NoSpace("_") && NoIllegal(".pdf") && NoSpace(".pdf")
  {
  }

  /** The name carries its date in its first ten characters and ends in `.pdf`;
      it holds no character `clean_filename` would delete and no whitespace. */
  lemma PacketFilenameShape(item: AgendaItem)
    requires IsValid(item.date)
    ensures ParseIsoDate(PacketFilename(item)[..10]) == Some(item.date)
    ensures PacketFilename(item)[10] == '_'
    ensures EndsWith(PacketFilename(item), ".pdf")
    ensures NoIllegal(PacketFilename(item)) && NoSpace(PacketFilename(item))
  {
    var iso, clean := IsoDate(item.date), CleanFilename(item.meetingType);
    PacketFilenameParts(item);
    IsoDateRoundTrip(item.date);
    IsoDateSafe(item.date);
    SeparatorsSafe();
    SafeAppend(iso, "_");
    SafeAppend(iso + "_", clean);
    SafeAppend(iso + "_" + clean, ".pdf");
  }

  /** Two items get the same file name exactly when they have the same date and
      their meeting types clean to the same text. */
  lemma PacketFilenameInjective(a: AgendaItem, b: AgendaItem)
    requires IsValid(a.date) && IsValid(b.date)
    ensures PacketFilename(a) == PacketFilename(b) <==>
      a.date == b.date && CleanFilename(a.meetingType) == CleanFilename(b.meetingType)
  {
    PacketFilenameParts(a);
    PacketFilenameParts(b);
    if PacketFilename(a) == PacketFilename(b) {
      IsoDateInjective(a.date, b.date);
    }
  }

}

=== FILE: sanitize.dfy ===
/**
 `clean_filename` of the San Ramon table scraper: four substitutions applied in
 order to a meeting type before it becomes part of a file name.
   1. delete every `< > : " / \ | ? *`;
   2. replace every run of whitespace by one `-`;
   3. replace every run of `-` by one `-`;
   4. strip `-` from both ends.
 */
module Sanitize {
  import opened Text

  /** The character class `[<>:"/\\|?*]` of the first substitution. */
  predicate IsIllegal(c: char) {
    c == '<' || c == '>' || c == ':' || c == '"' || c == '/' || c == '\\' || c == '|' || c == '?' || c == '*'
  }

  predicate NoIllegal(s: string) {
    forall i | 0 <= i < |s| :: !IsIllegal(s[i])
  }

  predicate NoSpace(s: string) {
    forall i | 0 <= i < |s| :: !IsSpace(s[i])
  }

  predicate NoDoubleHyphen(s: string) {
    forall i | 0 <= i < |s| - 1 :: s[i] != '-' || s[i + 1] != '-'
  }

  /** `re.sub(r'[<>:"/\\|?*]', '', s)`. */
  function RemoveIllegal(s: string): (r: string)
    ensures NoIllegal(r)
  {
    if s == [] then []
    else if IsIllegal(s[0]) then RemoveIllegal(s[1..])
    else [s[0]] + RemoveIllegal(s[1..])
  }

  /** `re.sub(C + '+', '-', s)` for a character class `C` given by `inRun`:
      every maximal run of class characters becomes a single `-`. */
  function CollapseRuns(s: string, inRun: char -> bool): string
    decreases |s|
  {
    if s == [] then []
    else if inRun(s[0]) then "-" + CollapseRuns(TrimStart(s[1..], inRun), inRun)
    else [s[0]] + CollapseRuns(s[1..], inRun)
  }

  /** Every character of `r` is a `-` or a character of `s` outside the class. */
  predicate HyphenOrKept(r: string, s: string, inRun: char -> bool) {
    forall i | 0 <= i < |r| :: r[i] == '-' || (!inRun(r[i]) && r[i] in s)
  }

  /** A collapse writes only `-` and characters of its input outside the class;
      it starts with `-` exactly when the input starts with a class character or `-`. */
  lemma {:induction false} CollapseRunsChars(s: string, inRun: char -> bool)
    ensures CollapseRuns(s, inRun) == [] <==> s == []
    ensures HyphenOrKept(CollapseRuns(s, inRun), s, inRun)
    ensures CollapseRuns(s, inRun) != [] ==> (CollapseRuns(s, inRun)[0] == '-' <==> (inRun(s[0]) || s[0] == '-'))
    decreases |s|
  {
    if s != [] {
      var r := CollapseRuns(s, inRun);
      if inRun(s[0]) {
        var tail := TrimStart(s[1..], inRun);
        CollapseRunsChars(tail, inRun);
        var t := CollapseRuns(tail, inRun);
        assert r == "-" + t;
        SuffixKeeps(t, tail, s, inRun);
      } else {
        var tail := s[1..];
        CollapseRunsChars(tail, inRun);
        var t := CollapseRuns(tail, inRun);
        assert r == [s[0]] + t;
        SuffixKeeps(t, tail, s, inRun);
      }
    }
  }

  lemma SuffixKeeps(t: string, tail: string, s: string, inRun: char -> bool)
    requires HyphenOrKept(t, tail, inRun)
    requires |tail| < |s| && tail == s[|s| - |tail|..]
    ensures HyphenOrKept("-" + t, s, inRun)
    ensures !inRun(s[0]) ==> HyphenOrKept([s[0]] + t, s, inRun)
  {
    forall c | c in tail ensures c in s {
      var j :| 0 <= j < |tail| && tail[j] == c;
      assert s[|s| - |tail| + j] == c;
    }
    var r := "-" + t;
    forall i | 0 <= i < |r| ensures r[i] == '-' || (!inRun(r[i]) && r[i] in s) {
      if i > 0 { assert r[i] == t[i - 1]; }
    }
    if !inRun(s[0]) {
      var r' := [s[0]] + t;
      forall i | 0 <= i < |r'| ensures r'[i] == '-' || (!inRun(r'[i]) && r'[i] in s) {
        if i > 0 { assert r'[i] == t[i - 1]; }
      }
    }
  }

  /** Putting a character in front keeps a string free of double hyphens
      unless both are `-`. */
  lemma NoDoubleCons(h: char, t: string)
    requires NoDoubleHyphen(t)
    requires h == '-' ==> t == [] || t[0] != '-'
    ensures NoDoubleHyphen([h] + t)
  {
    var r := [h] + t;
    forall i | 0 <= i < |r| - 1 ensures r[i] != '-' || r[i + 1] != '-' {
      if i > 0 {
        assert r[i] == t[i - 1] && r[i + 1] == t[i];
      } else {
        assert r[1] == t[0];
      }
    }
  }

  /** When `-` is itself in the class, a collapse never leaves two `-` in a row. */
  lemma {:induction false} CollapseRunsNoDouble(s: string, inRun: char -> bool)
    requires inRun('-')
    ensures NoDoubleHyphen(CollapseRuns(s, inRun))
    decreases |s|
  {
    if s != [] {
      var tail := if inRun(s[0]) then TrimStart(s[1..], inRun) else s[1..];
      var h := if inRun(s[0]) then '-' else s[0];
      var t := CollapseRuns(tail, inRun);
      assert CollapseRuns(s, inRun) == [h] + t;
      CollapseRunsNoDouble(tail, inRun);
      CollapseRunsChars(tail, inRun);
      assert h == '-' ==> t == [] || t[0] != '-';
      NoDoubleCons(h, t);
    }
  }

  /** `clean_filename(meeting_type)`. Its result contains no character the
      first substitution deletes, no whitespace, never two `-` in a row, and
      neither starts nor ends with `-`. */
  function CleanFilename(meetingType: string): (r: string)
    ensures NoIllegal(r) && NoSpace(r) && NoDoubleHyphen(r)
    ensures r == [] || (r[0] != '-' && r[|r| - 1] != '-')
  {
    var a := RemoveIllegal(meetingType);
    var b := CollapseRuns(a, IsSpace);
    var c := CollapseRuns(b, IsHyphen);
    CollapseStagesSafe(a, b, c);
    TrimHyphensSafe(c);
    Trim(c, IsHyphen)
  }

  /** Joining two strings keeps what each guarantees on its own. */
  lemma SafeAppend(a: string, b: string)
    requires NoIllegal(a) && NoSpace(a) && NoIllegal(b) && NoSpace(b)
    ensures NoIllegal(a + b) && NoSpace(a + b)
  {
    var r := a + b;
    forall i | 0 <= i < |r| ensures !IsIllegal(r[i]) && !IsSpace(r[i]) {
      if i < |a| { assert r[i] == a[i]; } else { assert r[i] == b[i - |a|]; }
    }
  }

  /** A contiguous run of a string has no illegal character, no whitespace
      and no double hyphen when the string has none. */
  lemma SliceSafe(r: string, c: string, i: int)
    requires IsSlice(r, c, i)
    requires NoIllegal(c) && NoSpace(c) && NoDoubleHyphen(c)
    ensures NoIllegal(r) && NoSpace(r) && NoDoubleHyphen(r)
  {
    assert forall k | 0 <= k < |r| :: r[k] == c[i + k];
  }

  /** Stage 4 takes a slice, so it keeps what the earlier stages guarantee. */
  lemma TrimHyphensSafe(c: string)
    requires NoIllegal(c) && NoSpace(c) && NoDoubleHyphen(c)
    ensures NoIllegal(Trim(c, IsHyphen)) && NoSpace(Trim(c, IsHyphen)) && NoDoubleHyphen(Trim(c, IsHyphen))
  {
    var r := Trim(c, IsHyphen);
    var i :| IsSlice(r, c, i);
    SliceSafe(r, c, i);
  }

  /** Stages 2 and 3 keep the guarantees of the stages before them. */
  lemma CollapseStagesSafe(a: string, b: string, c: string)
    requires NoIllegal(a)
    requires b == CollapseRuns(a, IsSpace)
    requires c == CollapseRuns(b, IsHyphen)
    ensures NoIllegal(c) && NoSpace(c) && NoDoubleHyphen(c)
  {
    CollapseRunsChars(a, IsSpace);
    CollapseRunsChars(b, IsHyphen);
    CollapseRunsNoDouble(b, IsHyphen);
    forall k | 0 <= k < |b| ensures !IsIllegal(b[k]) && !IsSpace(b[k]) {
      if b[k] != '-' {
        var j :| 0 <= j < |a| && a[j] == b[k];
      }
    }
    forall k | 0 <= k < |c| ensures !IsIllegal(c[k]) && !IsSpace(c[k]) {
      if c[k] != '-' {
        var j :| 0 <= j < |b| && b[j] == c[k];
      }
    }
  }

  // ----- Idempotence -----

  lemma {:induction false} RemoveIllegalFixed(s: string)
    requires NoIllegal(s)
    ensures RemoveIllegal(s) == s
  {
    if s != [] {
      RemoveIllegalFixed(s[1..]);
    }
  }

  /** The first stage works character by character, so it distributes over concatenation. */
  lemma {:induction false} RemoveIllegalAppend(a: string, b: string)
    ensures RemoveIllegal(a + b) == RemoveIllegal(a) + RemoveIllegal(b)
  {
    if a != [] {
      assert (a + b)[1..] == a[1..] + b;
      RemoveIllegalAppend(a[1..], b);
    } else {
      assert a + b == b;
    }
  }

  /** A string whose class characters are isolated `-` is left alone by a collapse. */
  lemma {:induction false} CollapseRunsFixed(s: string, inRun: char -> bool)
    requires forall i | 0 <= i < |s| :: inRun(s[i]) ==> s[i] == '-'
    requires forall i | 0 <= i < |s| - 1 :: !inRun(s[i]) || !inRun(s[i + 1])
    ensures CollapseRuns(s, inRun) == s
  {
    if s != [] {
      var tail := s[1..];
      assert forall i | 0 <= i < |tail| - 1 :: !inRun(tail[i]) || !inRun(tail[i + 1]) by {
        forall i | 0 <= i < |tail| - 1 ensures !inRun(tail[i]) || !inRun(tail[i + 1]) {
          assert tail[i] == s[i + 1] && tail[i + 1] == s[i + 2];
        }
      }
      CollapseRunsFixed(tail, inRun);
      if inRun(s[0]) {
        assert TrimStart(tail, inRun) == tail by {
          if tail != [] { assert !inRun(s[1]); }
        }
      }
    }
  }

  /** Cleaning a cleaned name changes nothing. */
  lemma CleanFilenameIdempotent(s: string)
    ensures CleanFilename(CleanFilename(s)) == CleanFilename(s)
  {
    var t := CleanFilename(s);
    RemoveIllegalFixed(t);
    CollapseRunsFixed(t, IsSpace);
    CollapseRunsFixed(t, IsHyphen);
  }

  // ----- What survives cleaning -----

  /** The characters every stage keeps as they are: not deleted, not whitespace, not `-`. */
  predicate IsContent(c: char) {
    !IsIllegal(c) && !IsSpace(c) && c != '-'
  }

  /** The content characters of `s`, in order. */
  function Content(s: string): string {
    if s == [] then []
    else if IsContent(s[0]) then [s[0]] + Content(s[1..])
    else Content(s[1..])
  }

  lemma {:induction false} ContentAppend(a: string, b: string)
    ensures Content(a + b) == Content(a) + Content(b)
  {
    if a == [] {
      assert a + b == b;
    } else {
      assert (a + b)[1..] == a[1..] + b;
      ContentAppend(a[1..], b);
    }
  }

  lemma {:induction false} RemoveIllegalContent(s: string)
    ensures Content(RemoveIllegal(s)) == Content(s)
  {
    if s != [] {
      RemoveIllegalContent(s[1..]);
    }
  }

  lemma {:induction false} TrimStartContent(s: string, p: char -> bool)
    requires forall c :: p(c) ==> !IsContent(c)
    ensures Content(TrimStart(s, p)) == Content(s)
  {
    if s != [] && p(s[0]) {
      TrimStartContent(s[1..], p);
    }
  }

  lemma {:induction false} TrimEndContent(s: string, p: char -> bool)
    requires forall c :: p(c) ==> !IsContent(c)
    ensures Content(TrimEnd(s, p)) == Content(s)
  {
    if s != [] && p(s[|s| - 1]) {
      var init := s[..|s| - 1];
      assert s == init + [s[|s| - 1]];
      ContentAppend(init, [s[|s| - 1]]);
      TrimEndContent(init, p);
    }
  }

  lemma {:induction false} CollapseRunsContent(s: string, inRun: char -> bool)
    requires forall c :: inRun(c) ==> !IsContent(c)
    ensures Content(CollapseRuns(s, inRun)) == Content(s)
    decreases |s|
  {
    if s != [] {
      if inRun(s[0]) {
        var rest := TrimStart(s[1..], inRun);
        TrimStartContent(s[1..], inRun);
        CollapseRunsContent(rest, inRun);
      } else {
        CollapseRunsContent(s[1..], inRun);
      }
    }
  }

  /** Cleaning keeps every content character, in order, and drops nothing else:
      only `-` separators are added between them. */
  lemma CleanFilenameContent(s: string)
    ensures Content(CleanFilename(s)) == Content(s)
    ensures forall i | 0 <= i < |CleanFilename(s)| :: IsContent(CleanFilename(s)[i]) || CleanFilename(s)[i] == '-'
  {
    var a := RemoveIllegal(s);
    var b := CollapseRuns(a, IsSpace);
    var c := CollapseRuns(b, IsHyphen);
    RemoveIllegalContent(s);
    CollapseRunsContent(a, IsSpace);
    CollapseRunsContent(b, IsHyphen);
    TrimStartContent(c, IsHyphen);
    TrimEndContent(TrimStart(c, IsHyphen), IsHyphen);
  }

  /** The cleaned name is empty exactly when the meeting type has no content character. */
  lemma CleanFilenameEmpty(s: string)
    ensures CleanFilename(s) == [] <==> Content(s) == []
  {
    var r := CleanFilename(s);
    CleanFilenameContent(s);
    if r != [] {
      assert IsContent(r[0]);
      assert Content(r) == [r[0]] + Content(r[1..]);
    }
  }

}

=== FILE: seqs.dfy ===
/** First-match search over sequences, the shape of every `for … : if …: break` loop in the scrapers. */
module Seqs {

  /** Index of the first element satisfying `p`, or `|s|` when there is none. */
  function Find<T>(s: seq<T>, p: T -> bool): (k: nat)
    ensures k <= |s|
    ensures forall i | 0 <= i < k :: !p(s[i])
    ensures k < |s| ==> p(s[k])
  {
    if s == [] || p(s[0]) then 0 else 1 + Find(s[1..], p)
  }

  /** `Find` stops at the first element satisfying `p` after a prefix that has none. */
  lemma {:induction false} FindAfter<T>(a: seq<T>, c: T, b: seq<T>, p: T -> bool)
    requires forall i | 0 <= i < |a| :: !p(a[i])
    requires p(c)
    ensures Find(a + [c] + b, p) == |a|
    ensures (a + [c] + b)[..|a|] == a && (a + [c] + b)[|a| + 1..] == b
  {
    if a != [] {
      assert (a + [c] + b)[1..] == a[1..] + [c] + b;
      FindAfter(a[1..], c, b, p);
    }
  }

  /** A search of a concatenation finds the first part's match if it has one,
      and otherwise continues into the second part. */
  lemma {:induction false} FindAppend<T>(a: seq<T>, b: seq<T>, p: T -> bool)
    ensures Find(a + b, p) == if Find(a, p) < |a| then Find(a, p) else |a| + Find(b, p)
  {
    if a == [] {
      assert a + b == b;
    } else {
      assert (a + b)[0] == a[0];
      assert (a + b)[1..] == a[1..] + b;
      FindAppend(a[1..], b, p);
    }
  }

  /** A search that found nothing in `pre` stops at the start of `post` when `post` starts with a match. */
  lemma FindHit<T>(pre: seq<T>, post: seq<T>, p: T -> bool)
    requires Find(pre, p) == |pre|
    requires post != [] && p(post[0])
    ensures Find(pre + post, p) == |pre| && (pre + post)[|pre|] == post[0]
  {
    FindAppend(pre, post, p);
  }

  /** A search that found nothing in `pre` finds nothing in `pre + [x]` when `x` does not match. */
  lemma FindMiss<T>(pre: seq<T>, x: T, p: T -> bool)
    requires Find(pre, p) == |pre|
    requires !p(x)
    ensures Find(pre + [x], p) == |pre| + 1
  {
    FindAppend(pre, [x], p);
  }

  /** One more step of a search through `pre` followed by `s`, past an element of `s` that does not match. */
  lemma FindMissAt<T>(pre: seq<T>, s: seq<T>, j: nat, p: T -> bool)
    requires j < |s|
    requires Find(pre + s[..j], p) == |pre| + j
    requires !p(s[j])
    ensures Find(pre + s[..j + 1], p) == |pre| + j + 1
  {
    SnocSlice(pre, s, j);
    FindMiss(pre + s[..j], s[j], p);
  }

  lemma SnocSlice<T>(pre: seq<T>, s: seq<T>, j: nat)
    requires j < |s|
    ensures pre + s[..j + 1] == (pre + s[..j]) + [s[j]]
  {
    assert s[..j + 1] == s[..j] + [s[j]];
  }

  /** Concatenation is associative (stated on its own so that callers get it cheaply). */
  lemma AppendAssoc<T>(a: seq<T>, b: seq<T>, c: seq<T>)
    ensures (a + b) + c == a + (b + c)
  {
  }

}

=== FILE: text.dfy ===
/**
 String helpers shared by the scrapers, each the Python built-in it stands for:
 `str.isspace`, `str.strip`, `in` on strings, `startswith`/`endswith`,
 `str.replace` of one character, `str(n)` and `int(s)` on decimal digits.
 Strings are `seq<char>`; case mapping is restricted to ASCII.
 */
module Text {

  /** `str.isspace()`: also exactly the characters `\s` matches in a `str`
      regular expression and the characters `str.strip()` removes. */
  predicate IsSpace(c: char) {
    || c == ' '
    || ('\t' <= c <= '\r')
    || ('\U{1c}' <= c <= '\U{1f}')
    || c == '\U{85}' || c == '\U{a0}' || c == '\U{1680}'
    || ('\U{2000}' <= c <= '\U{200a}')
    || c == '\U{2028}' || c == '\U{2029}' || c == '\U{202f}' || c == '\U{205f}' || c == '\U{3000}'
  }

  predicate IsHyphen(c: char) { c == '-' }

  predicate IsSlash(c: char) { c == '/' }

  /** ASCII decimal digit (`\d` restricted to ASCII). */
  predicate IsDigit(c: char) { '0' <= c <= '9' }

  predicate AllDigits(s: string) {
    forall i | 0 <= i < |s| :: IsDigit(s[i])
  }

  function DigitValue(c: char): nat
    requires IsDigit(c)
  {
    (c as int - '0' as int) as nat
  }

  function DigitChar(d: nat): (c: char)
    requires d < 10
    ensures IsDigit(c) && DigitValue(c) == d
  {
    ('0' as int + d) as char
  }

  /** `int(s)` for a string of ASCII digits, read most significant digit first. */
  function DigitsValue(s: string): nat
    requires AllDigits(s)
  {
    if s == [] then 0 else DigitsValue(s[..|s| - 1]) * 10 + DigitValue(s[|s| - 1])
  }

  /** Appending a digit multiplies the value by ten and adds the digit. */
  lemma DigitsSnoc(s: string, c: char)
    requires AllDigits(s) && IsDigit(c)
    ensures AllDigits(s + [c]) && DigitsValue(s + [c]) == DigitsValue(s) * 10 + DigitValue(c)
  {
    assert (s + [c])[..|s|] == s;
  }

  /** `str(n)` for a natural number: shortest decimal spelling, no leading zero. */
  function NatText(n: nat): (r: string)
    ensures 1 <= |r| && AllDigits(r)
    ensures DigitsValue(r) == n
    ensures |r| > 1 ==> r[0] != '0'
    ensures n < 10 ==> |r| == 1
    ensures n < 100 ==> |r| <= 2
    ensures n < 10000 ==> |r| <= 4
  {
    if n < 10 then [DigitChar(n)]
    else
      var p := NatText(n / 10);
      var r := p + [DigitChar(n % 10)];
      assert r[..|r| - 1] == p;
      r
  }

  /** `str(n)` for any integer: a minus sign before the digits of a negative number. */
  function IntText(n: int): (r: string)
    ensures r != [] && forall i | 0 <= i < |r| :: IsDigit(r[i]) || r[i] == '-'
  {
    if n < 0 then "-" + NatText(-n) else NatText(n)
  }

  /** Different integers have different spellings. */
  lemma IntTextInjective(a: int, b: int)
    ensures IntText(a) == IntText(b) <==> a == b
  {
    if IntText(a) == IntText(b) {
      if a < 0 && b < 0 {
        assert NatText(-a) == IntText(a)[1..] == IntText(b)[1..] == NatText(-b);
      }
    }
  }

  function Zeros(k: nat): (r: string)
    ensures |r| == k && AllDigits(r)
    ensures forall i | 0 <= i < k :: r[i] == '0'
  {
    if k == 0 then [] else "0" + Zeros(k - 1)
  }

  /** A leading zero does not change the value of a digit string. */
  lemma {:induction false} LeadingZero(s: string)
    requires AllDigits(s)
    ensures AllDigits("0" + s) && DigitsValue("0" + s) == DigitsValue(s)
  {
    var z := "0" + s;
    assert AllDigits(z) by {
      forall i | 0 <= i < |z| ensures IsDigit(z[i]) {
        if i > 0 { assert z[i] == s[i - 1]; }
      }
    }
    if s != [] {
      var init := s[..|s| - 1];
      assert z[..|z| - 1] == "0" + init;
      LeadingZero(init);
    }
  }

  lemma {:induction false} LeadingZeros(k: nat, s: string)
    requires AllDigits(s)
    ensures AllDigits(Zeros(k) + s) && DigitsValue(Zeros(k) + s) == DigitsValue(s)
  {
    if k > 0 {
      LeadingZeros(k - 1, s);
      var t := Zeros(k - 1) + s;
      assert Zeros(k) == "0" + Zeros(k - 1);
      assert Zeros(k) + s == "0" + t;
      LeadingZero(t);
      assert DigitsValue("0" + t) == DigitsValue(s);
    } else {
      assert Zeros(k) + s == s;
    }
  }

  /** The `%0<w>d` spelling of `n`: `str(n)` left-padded with zeros to width `w`
      (the `%Y`, `%m`, `%d` fields of `strftime`). */
  function PadText(n: nat, w: nat): (r: string)
    ensures AllDigits(r) && DigitsValue(r) == n
    ensures |r| == if |NatText(n)| < w then w else |NatText(n)|
  {
    var t := NatText(n);
    if |t| < w then
      LeadingZeros(w - |t|, t);
      Zeros(w - |t|) + t
    else t
  }

  /** `sub in s` for Python strings. */
  predicate Contains(s: string, sub: string)
    decreases |s|
  {
    sub <= s || (|s| > 0 && Contains(s[1..], sub))
  }

  predicate EndsWith(s: string, suffix: string) {
    |suffix| <= |s| && s[|s| - |suffix|..] == suffix
  }

  /** Drops the longest prefix whose characters all satisfy `p` (`str.lstrip`). */
  function TrimStart(s: string, p: char -> bool): (r: string)
    ensures |r| <= |s| && r == s[|s| - |r|..]
    ensures r == [] || !p(r[0])
    ensures forall i | 0 <= i < |s| - |r| :: p(s[i])
  {
    if s != [] && p(s[0]) then TrimStart(s[1..], p) else s
  }

  /** A run of `p`-characters is dropped up to the first character that fails `p`. */
  lemma {:induction false} TrimStartAfter(run: string, rest: string, p: char -> bool)
    requires forall i | 0 <= i < |run| :: p(run[i])
    requires rest == [] || !p(rest[0])
    ensures TrimStart(run + rest, p) == rest
  {
    if run == [] {
      assert run + rest == rest;
    } else {
      assert (run + rest)[0] == run[0];
      assert (run + rest)[1..] == run[1..] + rest;
      TrimStartAfter(run[1..], rest, p);
    }
  }

  /** Drops the longest suffix whose characters all satisfy `p` (`str.rstrip`). */
  function TrimEnd(s: string, p: char -> bool): (r: string)
    ensures r <= s
    ensures r == [] || !p(r[|r| - 1])
    ensures forall i | |r| <= i < |s| :: p(s[i])
  {
    if s != [] && p(s[|s| - 1]) then TrimEnd(s[..|s| - 1], p) else s
  }

  /** `r` occurs in `s` as the contiguous run starting at index `i`. */
  predicate IsSlice(r: string, s: string, i: int) {
    0 <= i <= |s| - |r| && r == s[i..i + |r|]
  }

  /** `str.strip(chars)` where `p` says which characters are stripped. */
  function Trim(s: string, p: char -> bool): (r: string)
    ensures r == [] || (!p(r[0]) && !p(r[|r| - 1]))
    ensures |r| <= |s|
    ensures exists i :: IsSlice(r, s, i)
  {
    var a := TrimStart(s, p);
    var r := TrimEnd(a, p);
    var i := |s| - |a|;
    assert r == a[..|r|];
    assert a[..|r|] == s[i..i + |r|];
    assert IsSlice(r, s, i);
    r
  }

  /** `str.strip()` with no argument. */
  function Strip(s: string): string {
    Trim(s, IsSpace)
  }

  /** `s.replace(a, b)` for single characters `a` and `b`. */
  function ReplaceChar(s: string, a: char, b: char): (r: string)
    ensures |r| == |s|
    ensures forall i | 0 <= i < |s| :: r[i] == if s[i] == a then b else s[i]
  {
    seq(|s|, i requires 0 <= i < |s| => if s[i] == a then b else s[i])
  }

  /** ASCII `str.lower()` on one character. */
  function LowerChar(c: char): char {
    if 'A' <= c <= 'Z' then (c as int + 32) as char else c
  }

  function Lower(s: string): (r: string)
    ensures |r| == |s|
    ensures forall i | 0 <= i < |s| :: r[i] == LowerChar(s[i])
  {
    seq(|s|, i requires 0 <= i < |s| => LowerChar(s[i]))
  }

}
